=== FILE: README.md ===
# Smart complaint system: a verified model of the triage core

The smart complaint system takes free-text complaints from citizens. For
each complaint it does four things:

- It classifies the complaint into a municipal category with a zero-shot
  classifier.
- It extracts a place from the text.
- It assigns a severity tier from keyword lists.
- It combines category, severity and location into an urgency score
  from 1 to 10.

Complaints are stored with fresh ids and status "Pending", and they are
listed most urgent first.

This project models that decision logic in Dafny and proves properties
of it. It is split into seven modules:

| module | file | what it models |
|---|---|---|
| `Wrappers` | `wrappers.dfy` | `Option` and `Result` |
| `Text` | `text.dfy` | the Python string primitives used: `str.lower`, `str.isspace` / `\s`, `\w`, `k in s`, `str.split()`, `sep.join`; also `str.split(sep)`, which the source never calls, defined only to state that `", ".join` loses nothing |
| `UrgencyScorer` | `urgency_scorer.dfy` | `UrgencyScorer`: the keyword tables and weight tables, `get_severity_level`, `get_location_impact`, `score_complaint` |
| `Preprocess` | `nlp_preprocess.dfy` | `preprocess_text` |
| `Classifier` | `nlp_classifier.dfy` | `ComplaintClassifier.classify_complaint`, including its `("Unknown", 0.0)` fallback |
| `LocationExtractor` | `nlp_location.dfy` | `ComplaintClassifier.extract_location`; the regex search for its pattern is a backtracking matcher whose steps are stated by lemmas: each repetition takes whole runs, and a repetition is taken whenever it can be |
| `Triage` | `triage.dfy` | the logic of the `submit_complaint` and `get_complaints` endpoints |

Weights are kept in integer tenths, so 0.9 is written 9. Every weight in
the source is a multiple of 0.1, which makes the score exact:
`max(1, round(raw_score * 10))` is `PyRound(4c + 4s + 2l, 10)`.
`PyRound` is Python's round-half-to-even on the exact rational. The
numerator `4c + 4s + 2l` is always even, so the exact value is a multiple
of 0.2. It therefore never lies near a rounding tie, and the floating-point
error of the source cannot change the rounded result.

The regex `\b(\w+\s+){0,2}KEYWORD(\s+\w+){0,2}\b` is modelled as a
recursive backtracking matcher (`Suffix`, `Prefix`, `Attempt`, `MatchAt`,
`Search`). Each `\w+` or `\s+` can only succeed by consuming a whole run,
because a shorter run is followed by a character the next item cannot
match. A match attempt therefore tries two, one and then zero repetitions
on each side. `Search` returns the leftmost match, as `re.search` does.
The contracts bound a match at two words on either side of the keyword
(`MatchFacts`). The greediness lemmas (`WordThenSpaceMatches`,
`SpaceThenWordMatches`, `SuffixTakesNextWord`, `PrefixTakesNextWord`) state
that a repetition is taken whenever it can be, which fixes the extent.
`WindowTakesNeighbours` shows on a concrete text that the neighbouring words
are taken.

## Model

| member | source | states |
|---|---|---|
| Text.LowerStr | smart_complaint_system/backend/nlp_model.py:34 | `str.lower()` keeps the length and maps each character by ASCII lowercasing; whitespace and word characters stay what they are |
| Text.LoweredOccurrenceSurvives | smart_complaint_system/backend/urgency_scorer.py:67-69 | a lowercase keyword occurring in the raw text occurs at the same place in the lowercased text, so the case-insensitive `in` test finds it |
| Text.ContainsIff | smart_complaint_system/backend/urgency_scorer.py:69 | the substring test `k in s` holds exactly when `k` occurs at some offset of `s` |
| Text.Split | smart_complaint_system/backend/nlp_model.py:36 | `str.split()` yields non-empty, whitespace-free words, each built from characters of the input |
| Text.Join | smart_complaint_system/backend/nlp_model.py:38 | `sep.join(parts)` is empty for no parts, the part itself for one, and otherwise starts with the first part; the round trips below show it loses nothing |
| Text.SplitJoinRoundTrip | smart_complaint_system/backend/nlp_model.py:36-38 | joining whitespace-free words with single spaces and splitting again gives the words back |
| Text.SplitOnJoinRoundTrip | smart_complaint_system/backend/nlp_model.py:74 | `", ".join(parts).split(", ")` gives the parts back when no part contains a comma |
| Text.ContainsAroundComma | smart_complaint_system/backend/urgency_scorer.py:80-83 | a key with no comma that does not start with a space occurs in `a + ", " + b` exactly when it occurs in `a` or in `b` |
| Text.ContainsInCommaJoin | smart_complaint_system/backend/nlp_model.py:74 | such a key occurs in the lowercased `", ".join(parts)` exactly when it occurs in one of the lowercased parts |
| Preprocess.StripNonLetters | smart_complaint_system/backend/nlp_model.py:35 | `re.sub(r'[^a-z\s]', '', text)` keeps exactly the lowercase letters and whitespace, never lengthening the text |
| Preprocess.StripNonLettersIdempotent | smart_complaint_system/backend/nlp_model.py:35 | stripping twice removes nothing more than stripping once |
| Preprocess.StripNonLettersConcat | smart_complaint_system/backend/nlp_model.py:35 | `re.sub` works character by character: stripping `a + b` is stripping `a` followed by stripping `b`, so order and repeats are kept |
| Preprocess.StripNonLettersChar | smart_complaint_system/backend/nlp_model.py:35 | a single character is kept exactly when it is a lowercase ASCII letter or whitespace |
| Preprocess.Words | smart_complaint_system/backend/nlp_model.py:34-36 | the words split off are non-empty runs of lowercase ASCII letters |
| Preprocess.DropStopWords | smart_complaint_system/backend/nlp_model.py:37 | a word survives exactly when it is a word of the input and not a stop word |
| Preprocess.DropStopWordsConcat | smart_complaint_system/backend/nlp_model.py:37 | the filter keeps order and repeats: filtering `a + b` is filtering `a` followed by filtering `b` |
| Preprocess.DropStopWordsSingle | smart_complaint_system/backend/nlp_model.py:37 | a single word is kept exactly when it is not a stop word |
| Preprocess.Lemmatize | smart_complaint_system/backend/nlp_model.py:37 | each kept word is replaced by its lemma, position by position |
| Preprocess.Tokens | smart_complaint_system/backend/nlp_model.py:37 | the list comprehension yields no more tokens than the input has words (their contents are stated by `TokensAreLemmasOfNonStopWords`) |
| Preprocess.TokensAreLemmasOfNonStopWords | smart_complaint_system/backend/nlp_model.py:37 | every output token is the lemma of a non-stop word of the text, and every non-stop word's lemma is among the tokens |
| Preprocess.PreprocessText | smart_complaint_system/backend/nlp_model.py:33-38 | `' '.join(words)`: no tokens give ""; otherwise, when no lemma holds a space, cutting the result at each single space gives back exactly the tokens; when the lemmas are non-empty and whitespace-free it also splits on whitespace into exactly the tokens, never more than the words of the input |
| Preprocess.PreprocessBlank | smart_complaint_system/backend/nlp_model.py:33-38 | empty or whitespace-only text preprocesses to the empty string |
| Classifier.ClassifyComplaint | smart_complaint_system/backend/nlp_model.py:51-62 | the top label and score when the classifier's result is truthy with non-empty labels and scores, otherwise ("Unknown", 0.0) |
| Classifier.ClassifySeesOnlyPreprocessedText | smart_complaint_system/backend/nlp_model.py:52-54 | two texts with the same preprocessed form receive the same classification |
| Classifier.ClassifiedCategoryIsScored | smart_complaint_system/backend/nlp_model.py:49-62 | with a classifier that ranks only the candidate labels, the category is a candidate or "Unknown" and has its own entry in the scorer's category table |
| Classifier.ConfidenceInUnitRange | smart_complaint_system/backend/nlp_model.py:56-62 | the returned confidence is in [0, 1] whenever the classifier's top score is |
| LocationExtractor.WordRunEnd | smart_complaint_system/backend/nlp_model.py:70 | the greedy `\w+` run from a position: every character before its end is a word character, and the end is the text's end or a non-word character |
| LocationExtractor.SpaceRunEnd | smart_complaint_system/backend/nlp_model.py:70 | the greedy `\s+` run from a position: every character before its end is whitespace, and the end is the text's end or a non-whitespace character |
| LocationExtractor.Boundary | smart_complaint_system/backend/nlp_model.py:70 | the `\b` assertion: exactly one of the characters before and after the position is a word character (no contract of its own; used by `Suffix` and `MatchAt`) |
| LocationExtractor.WordRunEndsAt | smart_complaint_system/backend/nlp_model.py:70 | the `\w+` run ends at the first non-word character, so the run is determined by the text |
| LocationExtractor.SpaceRunEndsAt | smart_complaint_system/backend/nlp_model.py:70 | the `\s+` run ends at the first non-whitespace character, so the run is determined by the text |
| LocationExtractor.WordThenSpace | smart_complaint_system/backend/nlp_model.py:70 | when one `\w+\s+` repetition matches, it takes the whole non-empty word run and then the whole non-empty whitespace run after it |
| LocationExtractor.SpaceThenWord | smart_complaint_system/backend/nlp_model.py:70 | when one `\s+\w+` repetition matches, it takes the whole non-empty whitespace run and then the whole non-empty word run after it |
| LocationExtractor.WordThenSpaceMatches | smart_complaint_system/backend/nlp_model.py:70 | a `\w+\s+` repetition matches wherever a non-empty word run is followed by a non-empty whitespace run, ending after the whitespace |
| LocationExtractor.SpaceThenWordMatches | smart_complaint_system/backend/nlp_model.py:70 | a `\s+\w+` repetition matches wherever a non-empty whitespace run is followed by a non-empty word run, ending after the word |
| LocationExtractor.Suffix | smart_complaint_system/backend/nlp_model.py:70 | the `(\s+\w+){0,2}\b` tail of a match ends inside the text at a word boundary |
| LocationExtractor.SuffixTakesNextWord | smart_complaint_system/backend/nlp_model.py:70 | the tail is greedy: while repetitions are left and one more `\s+\w+` matches, the tail succeeds and ends no earlier than that repetition |
| LocationExtractor.Attempt | smart_complaint_system/backend/nlp_model.py:70 | an attempt places the keyword literally at the given position and ends after it at a word boundary |
| LocationExtractor.Prefix | smart_complaint_system/backend/nlp_model.py:70 | the `(\w+\s+){0,2}` head of a match puts the keyword at or after the start, with the match ending after the keyword |
| LocationExtractor.PrefixTakesNextWord | smart_complaint_system/backend/nlp_model.py:70 | the head is greedy: when one more `\w+\s+` repetition matches and the rest of the pattern succeeds after it, the match is that longer one and its keyword starts after the repetition |
| LocationExtractor.MatchAt | smart_complaint_system/backend/nlp_model.py:70 | a match attempt succeeds only at a `\b` position and covers the keyword |
| LocationExtractor.Search | smart_complaint_system/backend/nlp_model.py:70 | `re.search` returns a match starting at or after the given position, and it is the match attempt at its start |
| LocationExtractor.SearchIsLeftmost | smart_complaint_system/backend/nlp_model.py:70 | no match attempt succeeds before the match `re.search` reports, and none at all when it reports none |
| LocationExtractor.MatchFacts | smart_complaint_system/backend/nlp_model.py:70 | a match holds the keyword as a whole word, starts and ends on word characters, and is a window of at most two words either side of the keyword |
| LocationExtractor.SearchFindsIffWholeWord | smart_complaint_system/backend/nlp_model.py:69-71 | the search succeeds exactly when the keyword occurs as a whole word, and the keyword it matches is a whole-word occurrence |
| LocationExtractor.RoadwayYieldsNoPhrase | smart_complaint_system/backend/nlp_model.py:69-71 | "road" passes the substring pre-check in "roadway" but the regex finds no match there |
| LocationExtractor.WindowTakesNeighbours | smart_complaint_system/backend/nlp_model.py:70 | around "park" in "city park every day" the first match is the whole text: the word before and both words after are taken, not the bare keyword |
| LocationExtractor.StripWhitespace | smart_complaint_system/backend/nlp_model.py:72 | `strip()` removes whitespace from the two ends and nowhere else: the result is a slice `t[i..j]` with only whitespace before `i` and after `j`, it neither starts nor ends with whitespace, and it is empty exactly when the text is all whitespace |
| LocationExtractor.PhraseFor | smart_complaint_system/backend/nlp_model.py:69-72 | a keyword contributes at most one phrase, and one exactly when it is a substring of the text and `re.search` finds a match |
| LocationExtractor.PhraseForIff | smart_complaint_system/backend/nlp_model.py:69-72 | a keyword contributes a phrase exactly when it occurs as a whole word of the lowercased text |
| LocationExtractor.PhraseForShape | smart_complaint_system/backend/nlp_model.py:70-72 | a contributed phrase is exactly the slice of the text the first match covers (`strip()` removes nothing), so it occurs in the text; it is a window around its keyword and is lowercase when the text is |
| LocationExtractor.MatchedPhrase | smart_complaint_system/backend/nlp_model.py:70-72 | for a first match `w` the keyword contributes exactly `[s[w.start..w.end]]`, a window around the keyword occurring in `s` |
| LocationExtractor.Collect | smart_complaint_system/backend/nlp_model.py:67-72 | the loop over the keywords collects a phrase exactly when some keyword scanned contributes it |
| LocationExtractor.Found | smart_complaint_system/backend/nlp_model.py:65-72 | `found_locations` holds a phrase exactly when one of the fourteen location keywords contributes it |
| LocationExtractor.FoundPhraseShape | smart_complaint_system/backend/nlp_model.py:65-72 | every found phrase occurs in the lowercased text, is lowercase and is a window around some location keyword |
| LocationExtractor.FoundNonEmptyIff | smart_complaint_system/backend/nlp_model.py:65-73 | some phrase is found exactly when some location keyword occurs as a whole word |
| LocationExtractor.Dedup | smart_complaint_system/backend/nlp_model.py:74 | `list(set(...))` keeps exactly the same elements, each once |
| LocationExtractor.ExtractLocation | smart_complaint_system/backend/nlp_model.py:64-75 | "Unknown Location" is returned exactly when no location keyword occurs as a whole word of the lowercased text |
| LocationExtractor.ExtractLocationPhrases | smart_complaint_system/backend/nlp_model.py:73-74 | otherwise the result splits on ", " into distinct phrases, which are exactly the phrases found; each occurs in the lowercased text, is lowercase, comma-free and a window around a location keyword |
| UrgencyScorer.ScanFinds | smart_complaint_system/backend/urgency_scorer.py:68-76 | each ordered `for keyword in ...: if keyword in description_lower` scan succeeds exactly when some keyword of its list occurs in the text |
| UrgencyScorer.SeverityLevel | smart_complaint_system/backend/urgency_scorer.py:66-77 | the tier is Critical exactly when a Critical keyword occurs in the lowercased description; High exactly when none does but a High one does; Medium exactly when only a Medium one does; Low otherwise |
| UrgencyScorer.SeverityCaseInsensitive | smart_complaint_system/backend/urgency_scorer.py:67 | lowercasing the description first does not change its tier |
| UrgencyScorer.SeverityIgnoresCategory | smart_complaint_system/backend/urgency_scorer.py:66 | the category argument has no influence on the tier |
| UrgencyScorer.SeverityMonotoneUnderExtension | smart_complaint_system/backend/urgency_scorer.py:66-77 | adding text before or after a description never lowers its tier |
| UrgencyScorer.AggressiveIsAlwaysCritical | smart_complaint_system/backend/urgency_scorer.py:47-53 | "aggressive" is listed as both Critical and High; because Critical is tried first, it always yields Critical |
| UrgencyScorer.CriticalKeywordDecides | smart_complaint_system/backend/urgency_scorer.py:68-70 | any Critical keyword in the lowercased description makes the tier Critical, whatever else occurs |
| UrgencyScorer.HabitIsCritical | smart_complaint_system/backend/urgency_scorer.py:47 | matching is by substring, so "Bad habit" is Critical through the keyword "bit" |
| UrgencyScorer.SmallFireIsCritical | smart_complaint_system/backend/urgency_scorer.py:60-70 | the Low keyword "small" does not stop "fire" from making "small fire" Critical |
| UrgencyScorer.CategoryWeight | smart_complaint_system/backend/urgency_scorer.py:87 | a mapped category gets its table weight and any other category gets 0.1; every weight lies in 0.1..0.9 |
| UrgencyScorer.SeverityWeight | smart_complaint_system/backend/urgency_scorer.py:18-23 | severity weights lie in 0.2..1.0, a tier of rank r weighs at least 0.2·r + 0.2, only Critical weighs 1.0 and only Low weighs 0.2 |
| UrgencyScorer.SeverityWeightMonotone | smart_complaint_system/backend/urgency_scorer.py:18-23 | a higher tier never weighs less, and a strictly higher tier weighs at least 0.2 more |
| UrgencyScorer.FirstLocationMatch | smart_complaint_system/backend/urgency_scorer.py:81-83 | the entry the scan returns occurs in the text and no earlier entry does; when it returns none, no entry occurs |
| UrgencyScorer.LocationImpact | smart_complaint_system/backend/urgency_scorer.py:79-84 | the weight lies in 0.1..1.0; it is the weight of the first table entry, in declared order, occurring in the lowercased location, or 0.1 when none occurs |
| UrgencyScorer.FirstLocationMatchAgrees | smart_complaint_system/backend/urgency_scorer.py:81-83 | two texts containing the same table keys give the same first match |
| UrgencyScorer.SameKeysSameImpact | smart_complaint_system/backend/urgency_scorer.py:79-84 | the location weight depends only on which table keys the lowercased location contains |
| UrgencyScorer.LocationImpactIgnoresPhraseOrder | smart_complaint_system/backend/urgency_scorer.py:79-84 | phrases joined with ", " weigh the same in any order and with any repeats, because no table key holds a comma or starts with a space |
| UrgencyScorer.ParkOutranksLaterEntries | smart_complaint_system/backend/urgency_scorer.py:25-30 | a location mentioning "park" and neither "hospital" nor "school" weighs 0.8, whatever later entries it also mentions |
| UrgencyScorer.ParkBeatsMainRoad | smart_complaint_system/backend/urgency_scorer.py:28-30 | "Main Road near the Park" mentions "main road" (0.6) yet weighs 0.8 |
| UrgencyScorer.HospitalOutranksAll | smart_complaint_system/backend/urgency_scorer.py:26 | any location mentioning "hospital" weighs 1.0 |
| UrgencyScorer.UnknownLocationImpact | smart_complaint_system/backend/urgency_scorer.py:39 | the "Unknown Location" sentinel matches no earlier entry and weighs 0.1 |
| UrgencyScorer.PyRound | smart_complaint_system/backend/urgency_scorer.py:96 | `round(n / d)` is within half a unit of `n / d`, and an exact tie goes to the even neighbour |
| UrgencyScorer.ScoreFromWeights | smart_complaint_system/backend/urgency_scorer.py:94-96 | the banker's-rounded score lies in 1..10 and agrees with rounding half up, `(4c + 4s + 2l + 5) / 10` |
| UrgencyScorer.ScoreMonotone | smart_complaint_system/backend/urgency_scorer.py:94-96 | raising any weight never lowers the score |
| UrgencyScorer.Score | smart_complaint_system/backend/urgency_scorer.py:86-98 | the score lies in 1..10 and combines the category weight, the weight of the tier recomputed from the description, and the location weight |
| UrgencyScorer.ScoreIgnoresSeverityArgument | smart_complaint_system/backend/urgency_scorer.py:86-90 | the `severity` argument has no influence on the score |
| UrgencyScorer.ScoreMonotoneUnderExtension | smart_complaint_system/backend/urgency_scorer.py:86-98 | adding text to a description, after it or before it, never lowers its score |
| UrgencyScorer.ScoreHospitalPowerOutage | smart_complaint_system/backend/nlp_model.py:86 | the sample complaint "Power outage in the hospital area ... critical.", classified Electricity at "hospital", scores the maximum 10 |
| UrgencyScorer.ScoreUnknownEverything | smart_complaint_system/backend/urgency_scorer.py:86-98 | an "Unknown" category, the "Unknown Location" sentinel and an empty description score the minimum 1 |
| UrgencyScorer.EmptyDescriptionIsLow | smart_complaint_system/backend/urgency_scorer.py:77 | an empty description mentions no keyword and is Low |
| Triage.MaxId | smart_complaint_system/backend/app.py:55 | `complaint_id.max()` bounds every id and is the id of some record |
| Triage.NextId | smart_complaint_system/backend/app.py:55 | the new id is 1001 for an empty store; otherwise it exceeds every stored id and is one more than some stored id |
| Triage.Truthy | smart_complaint_system/backend/app.py:40-48 | Python truthiness of the optional `description` and `location` fields: present and non-empty; it has no contract of its own, and `Triage.Submit` and `Triage.FinalLocation` state the two branches it decides |
| Triage.FinalLocation | smart_complaint_system/backend/app.py:45-48 | the user's location when it is non-empty, otherwise the location extracted from the description |
| Triage.NewComplaint | smart_complaint_system/backend/app.py:44-66 | the stored record holds the next id, the description, the classified category, the tier recomputed for that category, the final location, the score with severity "N/A", the timestamp and "Pending" |
| Triage.Submit | smart_complaint_system/backend/app.py:36-68 | a missing or empty description fails with "Complaint description is required" and stores nothing; any other description appends exactly the new record to the store and returns it |
| Triage.SubmitKeepsIdsUnique | smart_complaint_system/backend/app.py:55-68 | a submission keeps the ids of a store with distinct ids distinct |
| Triage.WhitespaceDescriptionAccepted | smart_complaint_system/backend/app.py:40 | a description of whitespace only passes the `not description` check, so `Submit` succeeds on it |
| Triage.StoredSeverityAgreesWithUrgency | smart_complaint_system/backend/app.py:51-63 | the stored urgency is in 1..10 and is the score computed from the stored category, the stored severity tier and the stored location |
| Triage.NoPlaceMeansUnknownLocation | smart_complaint_system/backend/app.py:45-51 | without a location from the user, a description naming no place as a whole word is stored at "Unknown Location", which weighs 0.1 |
| Triage.LocationWeightIgnoresSetOrder | smart_complaint_system/backend/app.py:45-51 | the weight of the stored location is the same for every order in which `list(set(...))` may list the found phrases, so set order cannot change the urgency |
| Triage.Insert | smart_complaint_system/backend/app.py:79 | one step of the sort: the result is ordered by non-increasing urgency and holds the input plus the new record |
| Triage.ListComplaints | smart_complaint_system/backend/app.py:78-80 | the listing is ordered by non-increasing urgency and is a permutation of the store |
| Triage.SameRecordsSameUrgencies | smart_complaint_system/backend/app.py:79 | permuting the records permutes their urgency column |
| Triage.DescendingPermutationsEqual | smart_complaint_system/backend/app.py:79 | two non-increasing sequences of urgencies with the same elements are equal |
| Triage.ListingUniqueUpToTies | smart_complaint_system/backend/app.py:79 | any permutation of the store ordered by non-increasing urgency has the listing's urgency column, so sort orders differ only among equal urgencies |
| Triage.OrderedStoreKeepsUrgencies | smart_complaint_system/backend/app.py:79 | a store already ordered by urgency keeps its urgency column when listed; only records of equal urgency may change places |

## Left out

- The HTTP layer is left out: Flask routes, JSON bodies, status codes 400 and 201, and CORS. `Submit` returns a `Result`, and its `Failure` carries the 400 error message.
- The CSV file is left out: `load_complaints`, `save_complaints` and the directory creation. The store is a sequence argument, and the new store is part of the result.
- The clock is left out: `datetime.now().strftime(...)` is replaced by a string parameter `now`.
- `request.json` fields that are not strings are not modelled. Both `description` and `location` are `Option<string>`, with `None` for a missing key; Python truthiness is an empty or missing string.
- Triage.Submit: assumes the classifier returns on every input. The zero-shot pipeline is called without an exception handler (nlp_model.py line 54, app.py line 44), so an exception it raises would abort the request and store nothing. The transformers library may raise on the empty text that a whitespace-only, digit-only, punctuation-only or stop-word-only description preprocesses to. That library is not part of this model, so `Submit` promises success for every truthy description.
- The transformer pipeline is not modelled. The zero-shot classifier is an arbitrary function in `NlpEnv`, and its confidence is an arbitrary `real`.
- The NLTK stop-word corpus and the WordNet lemmatiser are arbitrary parameters, because their contents are data outside the program. NLTK downloads are left out.
- Unicode case mapping is not modelled: `str.lower()` and `\w` are ASCII-only. Python applies them to every Unicode letter and digit. Whitespace (`\s`, `str.split()`) uses Python's full `isspace` set.
- Floating point is not modelled: weights are exact tenths. As explained above, the exact score is never near a rounding tie, so this loses nothing.
- Python set order is not modelled. `list(set(found_locations))` iterates in hash order, which can change between runs. `Dedup` fixes one order. Every property stated about the joined result is independent of order, and `LocationWeightIgnoresSetOrder` shows that the urgency is too; only the stored location text can differ.
- The order of equal urgencies is not modelled. `sort_values` uses an unstable quicksort, so ties can come out in any order. `ListComplaints` is an insertion sort. `ListingUniqueUpToTies` shows that every ordering the source could produce has the same urgency column.
- `self.severity_weights.get(determined_severity, self.severity_weights["Low"])` (urgency_scorer.py line 90), whose default is the Low weight, is not modelled as a lookup: the tier is a datatype, so the fallback can never be taken.
- `LowKeywords` is declared but never read by the tier decision, the same as in the source.
- The `__main__` blocks are not modelled: demo printing and app startup.
- The dashboard front end and `models/model1.py` are not part of this model.

=== FILE: nlp_classifier.dfy ===
/**
 * `ComplaintClassifier.classify_complaint`: the preprocessed text goes to a
 * zero-shot classifier together with the fixed candidate labels, and the top
 * label and score are returned, or ("Unknown", 0.0) when the classifier
 * gives no usable result.
 *
 * The transformer pipeline is foreign. It is an arbitrary function from the
 * text and the candidate labels to an optional result (`None` stands for a
 * falsy result); its confidence score is passed through untouched.
 */
module Classifier {
  import opened Wrappers
  import opened Preprocess
  import UrgencyScorer

  /** The candidate labels handed to the classifier; "Unknown" is not one of them. */
  const CandidateLabels: seq<string> := [
    "Water", "Electricity", "Sanitation", "Roads", "Traffic", "Encroachment", "Animal Control"
  ]

  /** The label returned when the classifier gives nothing usable. */
  const UnknownCategory: string := "Unknown"

  /** The zero-shot pipeline's output: labels ranked best first, with their scores. */
  datatype ZeroShotResult = ZeroShotResult(labels: seq<string>, scores: seq<real>)

  /** The foreign collaborators of the NLP model. */
  datatype NlpEnv = NlpEnv(
    stopWords: set<string>,
    lemmatize: string -> string,
    zeroShot: (string, seq<string>) -> Option<ZeroShotResult>)

  /** Whether the classifier's output is truthy and has a label and a score. */
  predicate Usable(result: Option<ZeroShotResult>)
  {
    result.Some? && |result.value.labels| > 0 && |result.value.scores| > 0
  }

  /** `classify_complaint`: the top (label, score) pair, or ("Unknown", 0.0). */
  function ClassifyComplaint(text: string, env: NlpEnv): (r: (string, real))
    ensures var result := env.zeroShot(PreprocessText(text, env.stopWords, env.lemmatize), CandidateLabels);
      && (Usable(result) ==> r == (result.value.labels[0], result.value.scores[0]))
      && (!Usable(result) ==> r == (UnknownCategory, 0.0))
  {
    var result := env.zeroShot(PreprocessText(text, env.stopWords, env.lemmatize), CandidateLabels);
    if Usable(result) then (result.value.labels[0], result.value.scores[0])
    else (UnknownCategory, 0.0)
  }

  /** The classifier only ever sees the preprocessed text. */
  lemma ClassifySeesOnlyPreprocessedText(t1: string, t2: string, env: NlpEnv)
    requires PreprocessText(t1, env.stopWords, env.lemmatize) == PreprocessText(t2, env.stopWords, env.lemmatize)
    ensures ClassifyComplaint(t1, env) == ClassifyComplaint(t2, env)
  {
  }

  /**
   * When the classifier ranks only candidate labels, the category is a
   * candidate or "Unknown", and either way the scorer's category table has
   * an entry for it.
   */
  lemma ClassifiedCategoryIsScored(text: string, env: NlpEnv)
    requires var result := env.zeroShot(PreprocessText(text, env.stopWords, env.lemmatize), CandidateLabels);
      result.Some? ==> forall i :: 0 <= i < |result.value.labels| ==> result.value.labels[i] in CandidateLabels
    ensures var category := ClassifyComplaint(text, env).0;
      && (category in CandidateLabels || category == UnknownCategory)
      && category in UrgencyScorer.CategoryImpact
      && UrgencyScorer.CategoryWeight(category) == UrgencyScorer.CategoryImpact[category]
  {
    var category := ClassifyComplaint(text, env).0;
    assert forall l :: l in CandidateLabels ==> l in UrgencyScorer.CategoryImpact;
  }

  /** A confidence in [0, 1] from the classifier stays in [0, 1]. */
  lemma ConfidenceInUnitRange(text: string, env: NlpEnv)
    requires var result := env.zeroShot(PreprocessText(text, env.stopWords, env.lemmatize), CandidateLabels);
      Usable(result) ==> 0.0 <= result.value.scores[0] <= 1.0
    ensures 0.0 <= ClassifyComplaint(text, env).1 <= 1.0
  {
  }
}

=== FILE: nlp_location.dfy ===
/**
 * `ComplaintClassifier.extract_location`: for each location keyword, in
 * order, that is a substring of the lowercased text, the first match of the
 * regex `\b(\w+\s+){0,2}KEYWORD(\s+\w+){0,2}\b` is taken as a phrase; the
 * phrases are de-duplicated and joined with ", ", or the sentinel
 * "Unknown Location" is returned when there is none.
 *
 * The regex search is modelled as a matcher for this pattern. Each `\w+` and
 * `\s+` can only succeed by taking a whole run of word or whitespace
 * characters (a shorter run is followed by a character the next item cannot
 * match), so a match attempt is deterministic: at the leftmost start `p`
 * where `\b` holds, two, one and then zero `\w+\s+` repetitions are tried
 * before the keyword, and after the keyword two, one and then zero
 * `\s+\w+` repetitions are tried before the closing `\b`. The contracts
 * bound a match at two words either side of the keyword (`MatchFacts`);
 * the greediness lemmas (`WordThenSpaceMatches`, `SpaceThenWordMatches`,
 * `SuffixTakesNextWord`, `PrefixTakesNextWord`) state that a repetition is
 * taken whenever it can be, which fixes how far the window reaches.
 */
module LocationExtractor {
  import opened Wrappers
  import opened Text

  const LocationKeywords: seq<string> := [
    "ward", "sector", "road", "park", "area", "complex", "street", "intersection",
    "neighborhood", "city", "town", "hospital", "school", "market"
  ]

  /** The result when no keyword yields a phrase. */
  const UnknownLocation: string := "Unknown Location"

  /** The separator between phrases in the result. */
  const PhraseSeparator: string := ", "

  /** A single lowercase word: the shape of every location keyword. */
  predicate IsKeyword(kw: string)
  {
    |kw| > 0 && forall i :: 0 <= i < |kw| ==> IsAsciiLower(kw[i])
  }

  lemma LocationKeywordsAreKeywords()
    ensures forall k :: 0 <= k < |LocationKeywords| ==> IsKeyword(LocationKeywords[k])
  {
  }

  /** End of the run of word characters starting at `i`. */
  function WordRunEnd(s: string, i: nat): (e: nat)
    requires i <= |s|
    ensures i <= e <= |s|
    ensures forall j :: i <= j < e ==> IsWordChar(s[j])
    ensures e == |s| || !IsWordChar(s[e])
    decreases |s| - i
  {
    if i < |s| && IsWordChar(s[i]) then WordRunEnd(s, i + 1) else i
  }

  /** End of the run of whitespace characters starting at `i`. */
  function SpaceRunEnd(s: string, i: nat): (e: nat)
    requires i <= |s|
    ensures i <= e <= |s|
    ensures forall j :: i <= j < e ==> IsSpace(s[j])
    ensures e == |s| || !IsSpace(s[e])
    decreases |s| - i
  {
    if i < |s| && IsSpace(s[i]) then SpaceRunEnd(s, i + 1) else i
  }

  /** The regex assertion `\b` at position `i`. */
  predicate Boundary(s: string, i: nat)
    requires i <= |s|
  {
    (i > 0 && IsWordChar(s[i - 1])) != (i < |s| && IsWordChar(s[i]))
  }

  /** One repetition of `\w+\s+` from `i`: the position after it, if it matches. */
  function WordThenSpace(s: string, i: nat): (r: Option<nat>)
    requires i <= |s|
    ensures r.Some? ==> i < WordRunEnd(s, i) < r.value <= |s| && r.value == SpaceRunEnd(s, WordRunEnd(s, i))
  {
    var w := WordRunEnd(s, i);
    if w == i then None
    else
      var e := SpaceRunEnd(s, w);
      if e == w then None else Some(e)
  }

  /** One repetition of `\s+\w+` from `i`: the position after it, if it matches. */
  function SpaceThenWord(s: string, i: nat): (r: Option<nat>)
    requires i <= |s|
    ensures r.Some? ==> i < SpaceRunEnd(s, i) < r.value <= |s| && r.value == WordRunEnd(s, SpaceRunEnd(s, i))
  {
    var w := SpaceRunEnd(s, i);
    if w == i then None
    else
      var e := WordRunEnd(s, w);
      if e == w then None else Some(e)
  }

  /** A `\w+\s+` repetition matches wherever a word run is followed by a whitespace run. */
  lemma WordThenSpaceMatches(s: string, i: nat)
    requires i <= |s| && WordRunEnd(s, i) > i && SpaceRunEnd(s, WordRunEnd(s, i)) > WordRunEnd(s, i)
    ensures WordThenSpace(s, i) == Some(SpaceRunEnd(s, WordRunEnd(s, i)))
  {
  }

  /** A `\s+\w+` repetition matches wherever a whitespace run is followed by a word run. */
  lemma SpaceThenWordMatches(s: string, i: nat)
    requires i <= |s| && SpaceRunEnd(s, i) > i && WordRunEnd(s, SpaceRunEnd(s, i)) > SpaceRunEnd(s, i)
    ensures SpaceThenWord(s, i) == Some(WordRunEnd(s, SpaceRunEnd(s, i)))
  {
  }

  /** How many words the pattern allows on either side of the keyword: `{0,2}`. */
  const WindowWords: nat := 2

  /**
   * `(\s+\w+){0,n}\b` from `e`, greedy with backtracking: one more
   * repetition is tried first, and only when everything after it fails does
   * the match end here, provided `\b` holds. The end of the match, if any.
   */
  function Suffix(s: string, e: nat, n: nat): (r: Option<nat>)
    requires e <= |s|
    ensures r.Some? ==> e <= r.value <= |s| && Boundary(s, r.value)
    decreases n
  {
    var longer := if n > 0 && SpaceThenWord(s, e).Some? then Suffix(s, SpaceThenWord(s, e).value, n - 1) else None;
    if longer.Some? then longer
    else if Boundary(s, e) then Some(e)
    else None
  }

  /**
   * The suffix is greedy: while repetitions are left and one more `\s+\w+`
   * matches, the suffix succeeds and takes at least that repetition.
   */
  lemma SuffixTakesNextWord(s: string, e: nat, n: nat)
    requires e <= |s| && n > 0 && SpaceThenWord(s, e).Some?
    ensures Suffix(s, e, n).Some? && Suffix(s, e, n).value >= SpaceThenWord(s, e).value
  {
    var e1 := SpaceThenWord(s, e).value;
    assert Boundary(s, e1);
  }

  /** A match: where it starts, where its keyword starts, and where it ends. */
  datatype Window = Window(start: nat, kwStart: nat, end: nat)

  /** The keyword at `q`, then the suffix, for a match that starts at `p`. */
  function Attempt(s: string, p: nat, q: nat, kw: string): (r: Option<Window>)
    requires p <= q <= |s|
    ensures r.Some? ==> r.value.start == p && r.value.kwStart == q && OccursAt(s, kw, q)
                        && q + |kw| <= r.value.end <= |s| && Boundary(s, r.value.end)
  {
    if !OccursAt(s, kw, q) then None
    else
      match Suffix(s, q + |kw|, WindowWords)
      case None => None
      case Some(e) => Some(Window(p, q, e))
  }

  /**
   * `(\w+\s+){0,n}` from `q`, then the keyword and the suffix, greedy with
   * backtracking, for a match that starts at `p`.
   */
  function Prefix(s: string, p: nat, q: nat, kw: string, n: nat): (r: Option<Window>)
    requires p <= q <= |s|
    ensures r.Some? ==> r.value.start == p && q <= r.value.kwStart && r.value.kwStart + |kw| <= r.value.end <= |s|
    decreases n
  {
    var longer := if n > 0 && WordThenSpace(s, q).Some? then Prefix(s, p, WordThenSpace(s, q).value, kw, n - 1) else None;
    if longer.Some? then longer else Attempt(s, p, q, kw)
  }

  /**
   * The prefix is greedy: when one more `\w+\s+` repetition matches and the
   * rest of the pattern succeeds after it, the match takes that repetition,
   * so its keyword starts after it.
   */
  lemma PrefixTakesNextWord(s: string, p: nat, q: nat, kw: string, n: nat)
    requires p <= q <= |s| && n > 0 && WordThenSpace(s, q).Some?
    requires Prefix(s, p, WordThenSpace(s, q).value, kw, n - 1).Some?
    ensures Prefix(s, p, q, kw, n) == Prefix(s, p, WordThenSpace(s, q).value, kw, n - 1)
    ensures Prefix(s, p, q, kw, n).value.kwStart >= WordThenSpace(s, q).value
  {
  }

  /** The match attempt of the regex at start position `p`: `\b`, then the rest of the pattern. */
  function MatchAt(s: string, p: nat, kw: string): (r: Option<Window>)
    requires p <= |s|
    ensures r.Some? ==> r.value.start == p && Boundary(s, p)
                        && p <= r.value.kwStart && r.value.kwStart + |kw| <= r.value.end <= |s|
  {
    if Boundary(s, p) then Prefix(s, p, p, kw, WindowWords) else None
  }

  /** `re.search` from position `p`: the match at the leftmost start position. */
  function Search(s: string, kw: string, p: nat): (r: Option<Window>)
    ensures r.Some? ==> p <= r.value.start <= |s| && MatchAt(s, r.value.start, kw) == r
    decreases |s| + 1 - p
  {
    if p > |s| then None
    else
      match MatchAt(s, p, kw)
      case Some(w) => Some(w)
      case None => Search(s, kw, p + 1)
  }

  /**
   * `Search` reports the leftmost match: no attempt from a start position
   * before the one it reports succeeds, and none at all when it reports
   * nothing.
   */
  lemma {:induction false} SearchIsLeftmost(s: string, kw: string, p: nat, j: nat)
    requires p <= j <= |s|
    ensures Search(s, kw, p).Some? && j < Search(s, kw, p).value.start ==> MatchAt(s, j, kw).None?
    ensures Search(s, kw, p).None? ==> MatchAt(s, j, kw).None?
    decreases j - p
  {
    if p < j && MatchAt(s, p, kw).None? {
      SearchIsLeftmost(s, kw, p + 1, j);
    }
  }

  /** `kw` occurs at `q` as a whole word: no word character touches it on either side. */
  predicate WholeWordAt(s: string, q: int, kw: string)
  {
    OccursAt(s, kw, q)
    && (q == 0 || !IsWordChar(s[q - 1]))
    && (q + |kw| == |s| || !IsWordChar(s[q + |kw|]))
  }

  predicate OccursAsWord(s: string, kw: string)
  {
    exists q :: 0 <= q <= |s| && WholeWordAt(s, q, kw)
  }

  /** `r` is `t` with whitespace removed from its two ends and nowhere else. */
  ghost predicate IsStripOf(r: string, t: string)
  {
    exists i, j :: 0 <= i <= j <= |t| && r == t[i..j] && AllSpace(t[..i]) && AllSpace(t[j..])
  }

  /**
   * Python's `str.strip()`: the text between the leading and the trailing
   * whitespace, which is empty exactly when the text is all whitespace.
   */
  function StripWhitespace(t: string): (r: string)
    ensures IsStripOf(r, t)
    ensures |r| > 0 ==> !IsSpace(r[0]) && !IsSpace(r[|r| - 1])
    ensures |r| == 0 <==> AllSpace(t)
    decreases |t|
  {
    if |t| > 0 && IsSpace(t[0]) then
      var r := StripWhitespace(t[1..]);
      StripLeading(r, t);
      r
    else if |t| > 0 && IsSpace(t[|t| - 1]) then
      var r := StripWhitespace(t[..|t| - 1]);
      StripTrailing(r, t);
      r
    else
      StripNothing(t);
      t
  }

  /** A leading whitespace character may be stripped first. */
  lemma StripLeading(r: string, t: string)
    requires |t| > 0 && IsSpace(t[0]) && IsStripOf(r, t[1..])
    ensures IsStripOf(r, t)
    ensures AllSpace(t) <==> AllSpace(t[1..])
  {
    var u := t[1..];
    var i, j :| 0 <= i <= j <= |u| && r == u[i..j] && AllSpace(u[..i]) && AllSpace(u[j..]);
    StripLeadingAt(t, i, j);
    assert 0 <= i + 1 <= j + 1 <= |t| && r == t[i + 1..j + 1] && AllSpace(t[..i + 1]) && AllSpace(t[j + 1..]);
    assert t == [t[0]] + u;
    AllSpaceCons(t[0], u);
  }

  /** The strip of `t[1..]` cut at `i` and `j` is the strip of `t` cut at `i + 1` and `j + 1`. */
  lemma StripLeadingAt(t: string, i: nat, j: nat)
    requires |t| > 0 && IsSpace(t[0]) && i <= j <= |t| - 1
    requires AllSpace(t[1..][..i]) && AllSpace(t[1..][j..])
    ensures t[1..][i..j] == t[i + 1..j + 1]
    ensures AllSpace(t[..i + 1]) && AllSpace(t[j + 1..])
  {
    var u := t[1..];
    assert t[j + 1..] == u[j..];
    assert t[..i + 1] == [t[0]] + u[..i];
    AllSpaceCons(t[0], u[..i]);
  }

  /** A trailing whitespace character may be stripped first. */
  lemma StripTrailing(r: string, t: string)
    requires |t| > 0 && IsSpace(t[|t| - 1]) && IsStripOf(r, t[..|t| - 1])
    ensures IsStripOf(r, t)
    ensures AllSpace(t) <==> AllSpace(t[..|t| - 1])
  {
    var u := t[..|t| - 1];
    var c := t[|t| - 1];
    var i, j :| 0 <= i <= j <= |u| && r == u[i..j] && AllSpace(u[..i]) && AllSpace(u[j..]);
    assert t[i..j] == u[i..j] && t[..i] == u[..i];
    assert t[j..] == u[j..] + [c] && t == u + [c];
    AllSpaceSnoc(u[j..], c);
    AllSpaceSnoc(u, c);
  }

  lemma AllSpaceCons(c: char, u: string)
    requires IsSpace(c)
    ensures AllSpace([c] + u) <==> AllSpace(u)
  {
    assert forall k :: 0 <= k < |u| ==> ([c] + u)[k + 1] == u[k];
  }

  lemma AllSpaceSnoc(u: string, c: char)
    requires IsSpace(c)
    ensures AllSpace(u + [c]) <==> AllSpace(u)
  {
    assert forall k :: 0 <= k < |u| ==> (u + [c])[k] == u[k];
  }

  /** Text with no whitespace at either end strips to itself. */
  lemma StripNothing(t: string)
    requires |t| == 0 || (!IsSpace(t[0]) && !IsSpace(t[|t| - 1]))
    ensures IsStripOf(t, t)
    ensures |t| == 0 <==> AllSpace(t)
  {
    assert t == t[0..|t|] && AllSpace(t[..0]) && AllSpace(t[|t|..]);
  }

  /**
   * The shape of a phrase cut from the text around keyword `kw`: only word
   * and whitespace characters, and split on whitespace it is `kw` with at
   * most two words before and two after.
   */
  predicate IsWindowAround(piece: string, kw: string)
  {
    && |piece| > 0
    && (forall i :: 0 <= i < |piece| ==> IsWordChar(piece[i]) || IsSpace(piece[i]))
    && var ws := Split(piece);
       exists j :: 0 <= j < |ws| && ws[j] == kw && j <= WindowWords && |ws| - 1 - j <= WindowWords
  }

  // ---------------------------------------------------------------------
  // Facts about single match attempts

  /** Splitting a slice that starts with a word ended by whitespace (or the slice end). */
  lemma SplitSliceWord(s: string, i: nat, w: nat, e: nat)
    requires i < w <= e <= |s|
    requires forall j :: i <= j < w ==> !IsSpace(s[j])
    requires w == e || IsSpace(s[w])
    ensures Split(s[i..e]) == [s[i..w]] + Split(s[w..e])
  {
    assert s[i..e] == s[i..w] + s[w..e];
    SplitWordThenRest(s[i..w], s[w..e]);
  }

  /** Splitting a slice that starts with whitespace. */
  lemma SplitSliceSpaces(s: string, i: nat, a: nat, e: nat)
    requires i <= a <= e <= |s|
    requires forall j :: i <= j < a ==> IsSpace(s[j])
    ensures Split(s[i..e]) == Split(s[a..e])
  {
    assert s[i..e] == s[i..a] + s[a..e];
    SplitSpacesThenRest(s[i..a], s[a..e]);
  }

  /** One `\s+\w+` repetition splits off one word. */
  lemma SuffixRepetitionSplit(s: string, i: nat, e: nat, end: nat)
    requires i <= |s| && SpaceThenWord(s, i) == Some(e)
    requires e <= end <= |s| && (end == e || IsSpace(s[e]))
    ensures Split(s[i..end]) == [s[SpaceRunEnd(s, i)..e]] + Split(s[e..end])
  {
    var w := SpaceRunEnd(s, i);
    assert i <= w < e && forall j :: w <= j < e ==> !IsSpace(s[j]);
    SplitSpacesThenWord(s, i, w, e, end);
  }

  /** Whitespace from `i` to `w`, then a word up to `e`: split on whitespace, that word comes first. */
  lemma SplitSpacesThenWord(s: string, i: nat, w: nat, e: nat, end: nat)
    requires i <= w < e <= end <= |s| && (end == e || IsSpace(s[e]))
    requires forall j :: i <= j < w ==> IsSpace(s[j])
    requires forall j :: w <= j < e ==> !IsSpace(s[j])
    ensures Split(s[i..end]) == [s[w..e]] + Split(s[e..end])
  {
    assert Split(s[i..end]) == Split(s[w..end]) by {
      SplitSliceSpaces(s, i, w, end);
    }
    assert Split(s[w..end]) == [s[w..e]] + Split(s[e..end]) by {
      SplitSliceWord(s, w, e, end);
    }
  }

  /** One `\s+\w+` repetition consists of whitespace, then word characters. */
  lemma SuffixRepetitionChars(s: string, i: nat, e: nat)
    requires i <= |s| && SpaceThenWord(s, i) == Some(e)
    ensures forall j :: i <= j < e ==> IsWordChar(s[j]) || IsSpace(s[j])
    ensures IsSpace(s[i]) && IsWordChar(s[e - 1])
  {
  }

  /** One `\w+\s+` repetition consists of word characters, then whitespace. */
  lemma PrefixRepetitionChars(s: string, i: nat, a: nat)
    requires i <= |s| && WordThenSpace(s, i) == Some(a)
    ensures forall j :: i <= j < a ==> IsWordChar(s[j]) || IsSpace(s[j])
    ensures IsWordChar(s[i]) && IsSpace(s[a - 1]) && !IsWordChar(s[a - 1])
  {
  }

  /** One `\w+\s+` repetition splits off one word. */
  lemma PrefixRepetitionSplit(s: string, i: nat, a: nat, e: nat)
    requires i <= |s| && WordThenSpace(s, i) == Some(a) && a <= e <= |s|
    ensures Split(s[i..e]) == [s[i..WordRunEnd(s, i)]] + Split(s[a..e])
  {
    var w := WordRunEnd(s, i);
    SplitSliceWord(s, i, w, e);
    SplitSliceSpaces(s, w, a, e);
  }

  /** After one `\w+\s+` repetition, word `j` of the rest is word `j + 1` of the whole. */
  lemma PrefixRepetitionShift(s: string, i: nat, a: nat, e: nat, j: nat)
    requires i <= |s| && WordThenSpace(s, i) == Some(a) && a <= e <= |s|
    requires j < |Split(s[a..e])|
    ensures |Split(s[i..e])| == |Split(s[a..e])| + 1
    ensures Split(s[i..e])[j + 1] == Split(s[a..e])[j]
  {
    var rest := Split(s[a..e]);
    PrefixRepetitionSplit(s, i, a, e);
    assert ([s[i..WordRunEnd(s, i)]] + rest)[j + 1] == rest[j];
  }

  /** The suffix of a match: whitespace-separated word characters ending in a word character. */
  lemma {:induction false} SuffixChars(s: string, e: nat, n: nat)
    requires e <= |s| && Suffix(s, e, n).Some?
    ensures var r := Suffix(s, e, n).value;
      && (forall i :: e <= i < r ==> IsWordChar(s[i]) || IsSpace(s[i]))
      && (r > e ==> IsSpace(s[e]) && IsWordChar(s[r - 1]))
    decreases n
  {
    if n > 0 && SpaceThenWord(s, e).Some? && Suffix(s, SpaceThenWord(s, e).value, n - 1).Some? {
      var e1 := SpaceThenWord(s, e).value;
      SuffixChars(s, e1, n - 1);
      SuffixRepetitionChars(s, e, e1);
    }
  }

  /** The suffix of a match holds at most `n` words. */
  lemma {:induction false} SuffixWords(s: string, e: nat, n: nat, r: nat)
    requires e <= |s| && Suffix(s, e, n) == Some(r)
    ensures e <= r <= |s| && |Split(s[e..r])| <= n
    decreases n
  {
    if n > 0 && SpaceThenWord(s, e).Some? && Suffix(s, SpaceThenWord(s, e).value, n - 1).Some? {
      var e1 := SpaceThenWord(s, e).value;
      SuffixWords(s, e1, n - 1, r);
      SuffixChars(s, e1, n - 1);
      SuffixRepetitionSplit(s, e, e1, r);
    } else {
      assert s[e..r] == "";
    }
  }

  /** The characters of a keyword occurrence are lowercase letters. */
  lemma KeywordChars(s: string, q: nat, kw: string)
    requires IsKeyword(kw) && OccursAt(s, kw, q)
    ensures s[q..q + |kw|] == kw
    ensures forall i :: q <= i < q + |kw| ==> IsAsciiLower(s[i]) && IsWordChar(s[i]) && !IsSpace(s[i])
  {
    forall i | q <= i < q + |kw|
      ensures IsAsciiLower(s[i])
    {
      assert s[i] == s[q..q + |kw|][i - q];
    }
  }

  /** The last character of a keyword occurrence is a word character. */
  lemma KeywordEndsWord(s: string, q: nat, kw: string)
    requires IsKeyword(kw) && OccursAt(s, kw, q)
    ensures IsWordChar(s[q]) && IsWordChar(s[q + |kw| - 1])
  {
    assert s[q] == s[q..q + |kw|][0];
    assert s[q + |kw| - 1] == s[q..q + |kw|][|kw| - 1];
  }

  /** A suffix that follows a word character starts with whitespace or ends the text. */
  lemma SuffixAfterWord(s: string, e0: nat, n: nat)
    requires 0 < e0 <= |s| && IsWordChar(s[e0 - 1]) && Suffix(s, e0, n).Some?
    ensures e0 == |s| || !IsWordChar(s[e0])
  {
    SuffixChars(s, e0, n);
  }

  /** The suffix an attempt takes. */
  lemma AttemptSuffix(s: string, p: nat, q: nat, kw: string, w: Window)
    requires p <= q <= |s| && Attempt(s, p, q, kw) == Some(w)
    ensures OccursAt(s, kw, q) && Suffix(s, q + |kw|, WindowWords) == Some(w.end)
  {
  }

  /** The keyword of a match ends a word of the text. */
  lemma AttemptKeyword(s: string, p: nat, q: nat, kw: string, w: Window)
    requires IsKeyword(kw) && p <= q <= |s| && Attempt(s, p, q, kw) == Some(w)
    ensures OccursAt(s, kw, q) && (q + |kw| == |s| || !IsWordChar(s[q + |kw|]))
  {
    AttemptSuffix(s, p, q, kw, w);
    KeywordEndsWord(s, q, kw);
    SuffixAfterWord(s, q + |kw|, WindowWords);
  }

  /** A match from the keyword on: word and whitespace characters, ending in a word character. */
  lemma AttemptChars(s: string, p: nat, q: nat, kw: string, w: Window)
    requires IsKeyword(kw) && p <= q <= |s| && Attempt(s, p, q, kw) == Some(w)
    ensures q < w.end <= |s| && IsWordChar(s[q]) && IsWordChar(s[w.end - 1])
    ensures forall i :: q <= i < w.end ==> IsWordChar(s[i]) || IsSpace(s[i])
  {
    AttemptSuffix(s, p, q, kw, w);
    KeywordSuffixChars(s, q, kw, WindowWords, w.end);
  }

  /** A keyword followed by a suffix ending at `r`: word and whitespace characters, word characters at both ends. */
  lemma KeywordSuffixChars(s: string, q: nat, kw: string, n: nat, r: nat)
    requires IsKeyword(kw) && OccursAt(s, kw, q) && Suffix(s, q + |kw|, n) == Some(r)
    ensures q < r <= |s| && IsWordChar(s[q]) && IsWordChar(s[r - 1])
    ensures forall i :: q <= i < r ==> IsWordChar(s[i]) || IsSpace(s[i])
  {
    SuffixChars(s, q + |kw|, n);
    KeywordChars(s, q, kw);
  }

  /** A non-empty suffix starts with whitespace. */
  lemma SuffixStart(s: string, e: nat, n: nat, r: nat)
    requires e <= |s| && Suffix(s, e, n) == Some(r)
    ensures e <= r <= |s|
    ensures r == e || IsSpace(s[e])
  {
    SuffixChars(s, e, n);
  }

  /** Split on whitespace, a match from the keyword on is the keyword and at most two more words. */
  lemma AttemptSplit(s: string, p: nat, q: nat, kw: string, w: Window)
    requires IsKeyword(kw) && p <= q <= |s| && Attempt(s, p, q, kw) == Some(w)
    ensures q + |kw| <= w.end <= |s|
    ensures Split(s[q..w.end]) == [kw] + Split(s[q + |kw|..w.end])
    ensures |Split(s[q + |kw|..w.end])| <= WindowWords
  {
    assert OccursAt(s, kw, q) && Suffix(s, q + |kw|, WindowWords) == Some(w.end) by {
      AttemptSuffix(s, p, q, kw, w);
    }
    KeywordThenSuffix(s, q, kw, WindowWords, w.end);
  }

  /** A keyword, then a suffix of at most `n` words ending at `r`, split on whitespace. */
  lemma KeywordThenSuffix(s: string, q: nat, kw: string, n: nat, r: nat)
    requires IsKeyword(kw) && OccursAt(s, kw, q) && Suffix(s, q + |kw|, n) == Some(r)
    ensures q + |kw| <= r <= |s|
    ensures Split(s[q..r]) == [kw] + Split(s[q + |kw|..r])
    ensures |Split(s[q + |kw|..r])| <= n
  {
    var e := q + |kw|;
    assert e <= r <= |s| && (r == e || IsSpace(s[e])) by {
      SuffixStart(s, e, n, r);
    }
    assert |Split(s[e..r])| <= n by {
      SuffixWords(s, e, n, r);
    }
    SplitKeywordThenRest(s, q, kw, r);
  }

  /** A keyword occurrence followed by whitespace (or the slice end) splits off as one word. */
  lemma SplitKeywordThenRest(s: string, q: nat, kw: string, e: nat)
    requires IsKeyword(kw) && OccursAt(s, kw, q) && q + |kw| <= e <= |s|
    requires e == q + |kw| || IsSpace(s[q + |kw|])
    ensures Split(s[q..e]) == [kw] + Split(s[q + |kw|..e])
  {
    var rest := s[q + |kw|..e];
    assert s[q..e] == kw + rest;
    assert NoSpace(kw);
    SplitWordThenRest(kw, rest);
  }

  /** Whether the prefix from `q` takes one more `\w+\s+` repetition. */
  predicate TakesRepetition(s: string, p: nat, q: nat, kw: string, n: nat)
    requires p <= q <= |s|
  {
    n > 0 && WordThenSpace(s, q).Some? && Prefix(s, p, WordThenSpace(s, q).value, kw, n - 1).Some?
  }

  /** One step of the prefix: the longer match, or else the keyword right here. */
  lemma PrefixStep(s: string, p: nat, q: nat, kw: string, n: nat)
    requires p <= q <= |s|
    ensures TakesRepetition(s, p, q, kw, n) ==>
              Prefix(s, p, q, kw, n) == Prefix(s, p, WordThenSpace(s, q).value, kw, n - 1)
    ensures !TakesRepetition(s, p, q, kw, n) ==> Prefix(s, p, q, kw, n) == Attempt(s, p, q, kw)
  {
  }

  /** The keyword of a match is a whole word, or starts where the prefix started. */
  lemma {:induction false} PrefixKeyword(s: string, p: nat, q: nat, kw: string, n: nat, w: Window)
    requires IsKeyword(kw) && p <= q <= |s| && Prefix(s, p, q, kw, n) == Some(w)
    ensures OccursAt(s, kw, w.kwStart)
    ensures w.kwStart == q || !IsWordChar(s[w.kwStart - 1])
    ensures w.kwStart + |kw| == |s| || !IsWordChar(s[w.kwStart + |kw|])
    decreases n
  {
    PrefixStep(s, p, q, kw, n);
    if TakesRepetition(s, p, q, kw, n) {
      var a := WordThenSpace(s, q).value;
      PrefixKeyword(s, p, a, kw, n - 1, w);
      PrefixRepetitionChars(s, q, a);
    } else {
      AttemptKeyword(s, p, q, kw, w);
    }
  }

  /** A match from `q` on: word and whitespace characters, with a word character at each end. */
  lemma {:induction false} PrefixChars(s: string, p: nat, q: nat, kw: string, n: nat, w: Window)
    requires IsKeyword(kw) && p <= q <= |s| && Prefix(s, p, q, kw, n) == Some(w)
    ensures q < w.end <= |s| && IsWordChar(s[q]) && IsWordChar(s[w.end - 1])
    ensures forall i :: q <= i < w.end ==> IsWordChar(s[i]) || IsSpace(s[i])
    decreases n
  {
    PrefixStep(s, p, q, kw, n);
    if TakesRepetition(s, p, q, kw, n) {
      var a := WordThenSpace(s, q).value;
      PrefixChars(s, p, a, kw, n - 1, w);
      PrefixRepetitionChars(s, q, a);
    } else {
      AttemptChars(s, p, q, kw, w);
    }
  }

  /**
   * Split on whitespace, a match from `q` on has the keyword at index `j`,
   * with at most `n` words before it and at most two after.
   */
  lemma {:induction false} PrefixSplit(s: string, p: nat, q: nat, kw: string, n: nat, w: Window) returns (j: nat)
    requires IsKeyword(kw) && p <= q <= |s| && Prefix(s, p, q, kw, n) == Some(w)
    ensures q <= w.end <= |s|
    ensures var ws := Split(s[q..w.end]);
      j <= n && j < |ws| && ws[j] == kw && |ws| - 1 - j <= WindowWords
    decreases n
  {
    PrefixStep(s, p, q, kw, n);
    if TakesRepetition(s, p, q, kw, n) {
      var a := WordThenSpace(s, q).value;
      var j' := PrefixSplit(s, p, a, kw, n - 1, w);
      PrefixRepetitionShift(s, q, a, w.end, j');
      j := j' + 1;
    } else {
      AttemptSplit(s, p, q, kw, w);
      j := 0;
    }
  }

  /** A slice of word and whitespace characters whose words put `kw` at most two from either end. */
  lemma WindowFromSplit(s: string, p: nat, e: nat, kw: string, j: nat)
    requires p < e <= |s|
    requires forall i :: p <= i < e ==> IsWordChar(s[i]) || IsSpace(s[i])
    requires j <= WindowWords && j < |Split(s[p..e])| && Split(s[p..e])[j] == kw
    requires |Split(s[p..e])| - 1 - j <= WindowWords
    ensures IsWindowAround(s[p..e], kw)
  {
    forall i | 0 <= i < e - p
      ensures IsWordChar(s[p..e][i]) || IsSpace(s[p..e][i])
    {
      assert s[p..e][i] == s[p + i];
    }
  }

  /** A matched window: the keyword occurs in it as a whole word of the text, and its shape. */
  lemma MatchFacts(s: string, p: nat, kw: string, w: Window)
    requires IsKeyword(kw) && p <= |s| && MatchAt(s, p, kw) == Some(w)
    ensures WholeWordAt(s, w.kwStart, kw)
    ensures p < w.end <= |s| && IsWordChar(s[p]) && IsWordChar(s[w.end - 1])
    ensures IsWindowAround(s[p..w.end], kw)
  {
    assert Boundary(s, p) && Prefix(s, p, p, kw, WindowWords) == Some(w);
    assert WholeWordAt(s, w.kwStart, kw) by {
      PrefixKeyword(s, p, p, kw, WindowWords, w);
      KeywordEndsWord(s, w.kwStart, kw);
    }
    assert p < w.end && IsWordChar(s[p]) && IsWordChar(s[w.end - 1]) && IsWindowAround(s[p..w.end], kw) by {
      PrefixChars(s, p, p, kw, WindowWords, w);
      var j := PrefixSplit(s, p, p, kw, WindowWords, w);
      WindowFromSplit(s, p, w.end, kw, j);
    }
  }

  /** A whole-word occurrence is a position where a match attempt succeeds. */
  lemma MatchAtWholeWord(s: string, q: nat, kw: string)
    requires IsKeyword(kw) && q <= |s| && WholeWordAt(s, q, kw)
    ensures MatchAt(s, q, kw).Some?
  {
    var e0 := q + |kw|;
    assert s[q] == s[q..e0][0] == kw[0];
    assert s[e0 - 1] == s[q..e0][|kw| - 1] == kw[|kw| - 1];
    assert Boundary(s, q) && Boundary(s, e0);
    assert Suffix(s, e0, WindowWords).Some?;
    assert Attempt(s, q, q, kw).Some?;
  }

  /** `re.search` finds a match exactly when the keyword occurs as a whole word. */
  lemma SearchFindsIffWholeWord(s: string, kw: string)
    requires IsKeyword(kw)
    ensures Search(s, kw, 0).Some? <==> OccursAsWord(s, kw)
    ensures Search(s, kw, 0).Some? ==> WholeWordAt(s, Search(s, kw, 0).value.kwStart, kw)
  {
    var r := Search(s, kw, 0);
    if r.Some? {
      MatchFacts(s, r.value.start, kw, r.value);
    }
    if OccursAsWord(s, kw) {
      var q :| 0 <= q <= |s| && WholeWordAt(s, q, kw);
      MatchAtWholeWord(s, q, kw);
      SearchIsLeftmost(s, kw, 0, q);
    }
  }

  /** A keyword inside a longer word, as "road" in "roadway", passes the substring test but yields no match. */
  lemma RoadwayYieldsNoPhrase(s: string)
    requires s == "roadway"
    ensures Contains(s, "road")
    ensures Search(s, "road", 0).None?
  {
    assert OccursAt(s, "road", 0);
    ContainsIff(s, "road");
    forall q | 0 <= q
      ensures !WholeWordAt(s, q, "road")
    {
      if q == 0 {
        assert IsWordChar(s[4]);
      } else if q + 4 <= |s| {
        assert s[q..q + 4][0] == s[q];
      }
    }
    SearchFindsIffWholeWord(s, "road");
  }

  /** The word run from `i` ends at `j` when `j` is the first non-word character from `i` on. */
  lemma {:induction false} WordRunEndsAt(s: string, i: nat, j: nat)
    requires i <= j <= |s| && (forall k :: i <= k < j ==> IsWordChar(s[k])) && (j == |s| || !IsWordChar(s[j]))
    ensures WordRunEnd(s, i) == j
    decreases j - i
  {
    if i < j {
      WordRunEndsAt(s, i + 1, j);
    }
  }

  /** The whitespace run from `i` ends at `j` when `j` is the first non-whitespace character from `i` on. */
  lemma {:induction false} SpaceRunEndsAt(s: string, i: nat, j: nat)
    requires i <= j <= |s| && (forall k :: i <= k < j ==> IsSpace(s[k])) && (j == |s| || !IsSpace(s[j]))
    ensures SpaceRunEnd(s, i) == j
    decreases j - i
  {
    if i < j {
      SpaceRunEndsAt(s, i + 1, j);
    }
  }

  /**
   * The window takes the neighbouring words: around "park" in
   * "city park every day" the match is the whole text, not the bare keyword.
   */
  lemma WindowTakesNeighbours(s: string)
    requires s == "city park every day"
    ensures Search(s, "park", 0) == Some(Window(0, 5, |s|))
  {
    WindowTakesNeighboursSteps(s);
    assert Prefix(s, 0, 5, "park", 1) == Some(Window(0, 5, 19));
    assert Prefix(s, 0, 0, "park", 2) == Some(Window(0, 5, 19));
  }

  /** The single steps of the match in `WindowTakesNeighbours`. */
  lemma WindowTakesNeighboursSteps(s: string)
    requires s == "city park every day"
    ensures WordThenSpace(s, 0) == Some(5) && WordThenSpace(s, 5) == Some(10)
    ensures Prefix(s, 0, 10, "park", 0) == None
    ensures Attempt(s, 0, 5, "park") == Some(Window(0, 5, 19))
  {
    NeighbourWordsBefore(s);
    assert !OccursAt(s, "park", 10) by {
      assert s[10..14][0] == s[10];
    }
    NeighbourWordsAfter(s);
    assert s[5..9] == "park";
  }

  lemma NeighbourWordsBefore(s: string)
    requires s == "city park every day"
    ensures WordThenSpace(s, 0) == Some(5) && WordThenSpace(s, 5) == Some(10)
  {
    RepetitionAt(s, 0, 4, 5);
    RepetitionAt(s, 5, 9, 10);
  }

  /** A word run from `i` to `w`, then a whitespace run to `e`: one `\w+\s+` repetition. */
  lemma RepetitionAt(s: string, i: nat, w: nat, e: nat)
    requires i < w < e <= |s|
    requires (forall k :: i <= k < w ==> IsWordChar(s[k])) && !IsWordChar(s[w])
    requires (forall k :: w <= k < e ==> IsSpace(s[k])) && (e == |s| || !IsSpace(s[e]))
    ensures WordThenSpace(s, i) == Some(e)
  {
    WordRunEndsAt(s, i, w);
    SpaceRunEndsAt(s, w, e);
  }

  lemma NeighbourWordsAfter(s: string)
    requires s == "city park every day"
    ensures Suffix(s, 9, 2) == Some(19)
  {
    SpaceRunEndsAt(s, 9, 10);
    WordRunEndsAt(s, 10, 15);
    SpaceRunEndsAt(s, 15, 16);
    WordRunEndsAt(s, 16, 19);
    assert SpaceThenWord(s, 9) == Some(15) && SpaceThenWord(s, 15) == Some(19);
    assert Suffix(s, 19, 0) == Some(19);
    assert Suffix(s, 15, 1) == Some(19);
  }

  // ---------------------------------------------------------------------
  // Collecting, de-duplicating and joining the phrases

  /**
   * What keyword `kw` contributes: the stripped text of its first match, when
   * it is a substring of `s` and the search succeeds.
   */
  function PhraseFor(s: string, kw: string): (r: seq<string>)
    ensures |r| <= 1
    ensures |r| == 1 <==> Contains(s, kw) && Search(s, kw, 0).Some?
  {
    if Contains(s, kw) then
      match Search(s, kw, 0)
      case None => []
      case Some(w) => [StripWhitespace(s[w.start..w.end])]
    else []
  }

  /** A keyword contributes a phrase exactly when it occurs as a whole word. */
  lemma PhraseForIff(s: string, kw: string)
    requires IsKeyword(kw)
    ensures |PhraseFor(s, kw)| == 1 <==> OccursAsWord(s, kw)
  {
    SearchFindsIffWholeWord(s, kw);
    if OccursAsWord(s, kw) {
      var q :| 0 <= q <= |s| && WholeWordAt(s, q, kw);
      assert OccursAt(s, kw, q);
      ContainsIff(s, kw);
    }
  }

  /** A slice of text with word characters at both ends is left alone by `strip()`. */
  lemma StripWordEnds(t: string)
    requires |t| > 0 && IsWordChar(t[0]) && IsWordChar(t[|t| - 1])
    ensures StripWhitespace(t) == t
  {
    assert !IsSpace(t[0]) && !IsSpace(t[|t| - 1]);
  }

  /** A slice of lowercase text is lowercase. */
  lemma SliceLowered(s: string, i: nat, j: nat)
    requires i <= j <= |s|
    ensures IsLowered(s) ==> IsLowered(s[i..j])
  {
    assert forall k :: 0 <= k < j - i ==> s[i..j][k] == s[i + k];
  }

  /**
   * The phrase a keyword contributes is the text of the first match, cut
   * from `s` as it stands (`strip()` removes nothing), and it is a window
   * around the keyword.
   */
  lemma PhraseForShape(s: string, kw: string)
    requires IsKeyword(kw) && |PhraseFor(s, kw)| == 1
    ensures Search(s, kw, 0).Some? && var w := Search(s, kw, 0).value;
      PhraseFor(s, kw)[0] == s[w.start..w.end]
    ensures Contains(s, PhraseFor(s, kw)[0])
    ensures IsWindowAround(PhraseFor(s, kw)[0], kw)
    ensures IsLowered(s) ==> IsLowered(PhraseFor(s, kw)[0])
  {
    assert Contains(s, kw) && Search(s, kw, 0).Some?;
    MatchedPhrase(s, kw, Search(s, kw, 0).value);
  }

  lemma MatchedPhrase(s: string, kw: string, w: Window)
    requires IsKeyword(kw) && Contains(s, kw) && Search(s, kw, 0) == Some(w)
    ensures w.start <= w.end <= |s| && PhraseFor(s, kw) == [s[w.start..w.end]]
    ensures Contains(s, s[w.start..w.end])
    ensures IsWindowAround(s[w.start..w.end], kw)
    ensures IsLowered(s) ==> IsLowered(s[w.start..w.end])
  {
    MatchedWindow(s, kw, w);
    MatchedPhraseIsSlice(s, kw, w);
    assert Contains(s, s[w.start..w.end]) by {
      assert OccursAt(s, s[w.start..w.end], w.start);
      ContainsIff(s, s[w.start..w.end]);
    }
    SliceLowered(s, w.start, w.end);
  }

  /** The first match starts and ends on word characters and is a window around the keyword. */
  lemma MatchedWindow(s: string, kw: string, w: Window)
    requires IsKeyword(kw) && Search(s, kw, 0) == Some(w)
    ensures w.start < w.end <= |s| && IsWordChar(s[w.start]) && IsWordChar(s[w.end - 1])
    ensures IsWindowAround(s[w.start..w.end], kw)
  {
    assert MatchAt(s, w.start, kw) == Some(w);
    MatchFacts(s, w.start, kw, w);
  }

  /** The phrase of a keyword with a first match is that match's slice, unstripped. */
  lemma MatchedPhraseIsSlice(s: string, kw: string, w: Window)
    requires Contains(s, kw) && Search(s, kw, 0) == Some(w)
    requires w.start < w.end <= |s| && IsWordChar(s[w.start]) && IsWordChar(s[w.end - 1])
    ensures PhraseFor(s, kw) == [s[w.start..w.end]]
  {
    WindowStripped(s, w.start, w.end);
  }

  /** A slice with a word character at each end is left alone by `strip()`. */
  lemma WindowStripped(s: string, i: nat, j: nat)
    requires i < j <= |s| && IsWordChar(s[i]) && IsWordChar(s[j - 1])
    ensures StripWhitespace(s[i..j]) == s[i..j]
  {
    var t := s[i..j];
    assert t[0] == s[i] && t[|t| - 1] == s[j - 1];
    StripWordEnds(t);
  }

  /**
   * The phrases `phrase` gives for the keywords from index `from` onwards,
   * concatenated in keyword order.
   */
  function Collect(keywords: seq<string>, from: nat, phrase: string -> seq<string>): (r: seq<string>)
    requires from <= |keywords|
    ensures forall x :: x in r <==> exists k :: from <= k < |keywords| && x in phrase(keywords[k])
    decreases |keywords| - from
  {
    if from == |keywords| then []
    else
      var here := phrase(keywords[from]);
      var rest := Collect(keywords, from + 1, phrase);
      assert forall x :: x in here + rest <==> exists k :: from <= k < |keywords| && x in phrase(keywords[k]) by {
        forall x ensures x in here + rest <==> exists k :: from <= k < |keywords| && x in phrase(keywords[k]) {
          if x in rest {
            var k :| from + 1 <= k < |keywords| && x in phrase(keywords[k]);
            assert from <= k < |keywords| && x in phrase(keywords[k]);
          }
          if x in here {
            assert from <= from < |keywords| && x in phrase(keywords[from]);
          }
        }
      }
      here + rest
  }

  /**
   * The phrases found in the lowercased text, in keyword order and before
   * de-duplication: a phrase is found exactly when some location keyword
   * contributes it.
   */
  function Found(text: string): (r: seq<string>)
    ensures forall x :: x in r <==>
              exists k :: 0 <= k < |LocationKeywords| && x in PhraseFor(LowerStr(text), LocationKeywords[k])
  {
    Collect(LocationKeywords, 0, kw => PhraseFor(LowerStr(text), kw))
  }

  /** Every phrase found is a slice of the lowercased text and a window around a location keyword. */
  lemma FoundPhraseShape(text: string, x: string)
    requires x in Found(text)
    ensures Contains(LowerStr(text), x)
    ensures IsLowered(x)
    ensures exists k :: 0 <= k < |LocationKeywords| && IsWindowAround(x, LocationKeywords[k])
  {
    var k :| 0 <= k < |LocationKeywords| && x in PhraseFor(LowerStr(text), LocationKeywords[k]);
    KeywordPhraseShape(text, k, x);
  }

  /** The phrase location keyword `k` contributes: a slice of the lowercased text and a window around it. */
  lemma KeywordPhraseShape(text: string, k: nat, x: string)
    requires k < |LocationKeywords| && x in PhraseFor(LowerStr(text), LocationKeywords[k])
    ensures Contains(LowerStr(text), x)
    ensures IsLowered(x)
    ensures IsWindowAround(x, LocationKeywords[k])
  {
    var s := LowerStr(text);
    var kw := LocationKeywords[k];
    assert IsKeyword(kw) by {
      LocationKeywordsAreKeywords();
    }
    assert |PhraseFor(s, kw)| == 1 && x == PhraseFor(s, kw)[0];
    PhraseForShape(s, kw);
    LowerStrIsLowered(text);
  }

  /** Some phrase is found exactly when some location keyword occurs as a whole word. */
  lemma FoundNonEmptyIff(text: string)
    ensures |Found(text)| > 0 <==>
            exists k :: 0 <= k < |LocationKeywords| && OccursAsWord(LowerStr(text), LocationKeywords[k])
  {
    var s := LowerStr(text);
    if |Found(text)| > 0 {
      var x := Found(text)[0];
      assert x in Found(text);
      var k :| 0 <= k < |LocationKeywords| && x in PhraseFor(s, LocationKeywords[k]);
      assert IsKeyword(LocationKeywords[k]) by {
        LocationKeywordsAreKeywords();
      }
      PhraseForIff(s, LocationKeywords[k]);
    }
    if exists k :: 0 <= k < |LocationKeywords| && OccursAsWord(s, LocationKeywords[k]) {
      var k :| 0 <= k < |LocationKeywords| && OccursAsWord(s, LocationKeywords[k]);
      assert IsKeyword(LocationKeywords[k]) by {
        LocationKeywordsAreKeywords();
      }
      PhraseForIff(s, LocationKeywords[k]);
      var x := PhraseFor(s, LocationKeywords[k])[0];
      assert x in PhraseFor(s, LocationKeywords[k]);
      assert x in Found(text);
    }
  }

  /** The distinct elements of `xs`, each once (Python's `list(set(xs))`, in one fixed order). */
  function Dedup(xs: seq<string>): (r: seq<string>)
    ensures forall x :: x in r <==> x in xs
    ensures forall i, j :: 0 <= i < j < |r| ==> r[i] != r[j]
    ensures |r| <= |xs|
    decreases |xs|
  {
    if |xs| == 0 then []
    else
      var rest := Dedup(xs[1..]);
      assert forall x :: x in xs <==> x == xs[0] || x in xs[1..];
      if xs[0] in rest then rest else [xs[0]] + rest
  }

  /**
   * `extract_location`: the distinct phrases joined with ", ", or the
   * sentinel. The sentinel comes back exactly when no location keyword
   * occurs as a whole word of the lowercased text.
   */
  function ExtractLocation(text: string): (r: string)
    ensures r == UnknownLocation
            <==> forall k :: 0 <= k < |LocationKeywords| ==> !OccursAsWord(LowerStr(text), LocationKeywords[k])
  {
    var found := Found(text);
    FoundNonEmptyIff(text);
    if |found| > 0 then
      JoinedPhrasesAreNotSentinel(text);
      Join(Dedup(found), PhraseSeparator)
    else UnknownLocation
  }

  lemma JoinLowered(parts: seq<string>, sep: string)
    requires IsLowered(sep) && forall i :: 0 <= i < |parts| ==> IsLowered(parts[i])
    ensures IsLowered(Join(parts, sep))
    decreases |parts|
  {
    if |parts| > 1 {
      JoinLowered(parts[1..], sep);
    }
  }

  /** Joined phrases are lowercase, so they are never the capitalised sentinel. */
  lemma JoinedPhrasesAreNotSentinel(text: string)
    requires |Found(text)| > 0
    ensures Join(Dedup(Found(text)), PhraseSeparator) != UnknownLocation
  {
    var parts := Dedup(Found(text));
    forall i | 0 <= i < |parts|
      ensures IsLowered(parts[i])
    {
      FoundPhraseShape(text, parts[i]);
    }
    JoinLowered(parts, PhraseSeparator);
    assert !IsLowered(UnknownLocation) by {
      assert IsAsciiUpper(UnknownLocation[0]);
    }
  }

  /** A window around a keyword holds no comma. */
  lemma WindowHasNoComma(piece: string, kw: string)
    requires IsWindowAround(piece, kw)
    ensures ',' !in piece
  {
    assert !IsWordChar(',') && !IsSpace(',');
  }

  /**
   * Otherwise the result splits on ", " into distinct phrases, the same set
   * as the phrases found; each is a slice of the lowercased text, is
   * lowercase, has no comma and is a window of at most two words either side
   * of a location keyword.
   */
  lemma ExtractLocationPhrases(text: string)
    requires ExtractLocation(text) != UnknownLocation
    ensures var parts := SplitOn(ExtractLocation(text), PhraseSeparator);
      && (forall i, j :: 0 <= i < j < |parts| ==> parts[i] != parts[j])
      && (forall x :: x in parts <==> x in Found(text))
      && (forall i :: 0 <= i < |parts| ==> Contains(LowerStr(text), parts[i]))
      && (forall i :: 0 <= i < |parts| ==> IsLowered(parts[i]) && ',' !in parts[i])
      && (forall i :: 0 <= i < |parts| ==>
            exists k :: 0 <= k < |LocationKeywords| && IsWindowAround(parts[i], LocationKeywords[k]))
  {
    var found := Found(text);
    var parts := Dedup(found);
    assert found[0] in parts;
    forall i | 0 <= i < |parts|
      ensures Contains(LowerStr(text), parts[i])
      ensures IsLowered(parts[i]) && PhraseSeparator[0] !in parts[i]
      ensures exists k :: 0 <= k < |LocationKeywords| && IsWindowAround(parts[i], LocationKeywords[k])
    {
      FoundPhraseShape(text, parts[i]);
      var k :| 0 <= k < |LocationKeywords| && IsWindowAround(parts[i], LocationKeywords[k]);
      WindowHasNoComma(parts[i], LocationKeywords[k]);
    }
    SplitOnJoinRoundTrip(parts, PhraseSeparator);
  }
}

=== FILE: nlp_preprocess.dfy ===
/**
 * `preprocess_text` of the NLP model: lowercase, drop every character that is
 * neither a lowercase ASCII letter nor whitespace, split on whitespace, drop
 * stop words, lemmatise the rest and join with single spaces.
 *
 * The stop-word corpus and the WordNet lemmatiser are foreign: the stop words
 * are an arbitrary set and the lemmatiser an arbitrary function, both given
 * as parameters.
 */
module Preprocess {
  import opened Text

  /** The characters the regex `[^a-z\s]` leaves in place. */
  predicate Kept(c: char)
  {
    IsAsciiLower(c) || IsSpace(c)
  }

  /** `re.sub(r'[^a-z\s]', '', s)`: the kept characters of `s`, in order. */
  function StripNonLetters(s: string): (r: string)
    ensures |r| <= |s|
    ensures forall i :: 0 <= i < |r| ==> Kept(r[i])
    ensures forall i :: 0 <= i < |r| ==> r[i] in s
    ensures forall i :: 0 <= i < |s| && Kept(s[i]) ==> s[i] in r
    decreases |s|
  {
    if |s| == 0 then ""
    else
      var rest := StripNonLetters(s[1..]);
      assert forall i :: 1 <= i < |s| ==> s[i] == s[1..][i - 1];
      if Kept(s[0]) then [s[0]] + rest else rest
  }

  /** Stripping twice removes nothing more. */
  lemma {:induction false} StripNonLettersIdempotent(s: string)
    ensures StripNonLetters(StripNonLetters(s)) == StripNonLetters(s)
    decreases |s|
  {
    if |s| > 0 {
      StripNonLettersIdempotent(s[1..]);
      var rest := StripNonLetters(s[1..]);
      if Kept(s[0]) {
        assert ([s[0]] + rest)[1..] == rest;
      }
    }
  }

  /**
   * `re.sub` works character by character, keeping order and repeats:
   * stripping distributes over concatenation, and a single character is
   * kept exactly when it is a lowercase letter or whitespace.
   */
  lemma {:induction false} StripNonLettersConcat(a: string, b: string)
    ensures StripNonLetters(a + b) == StripNonLetters(a) + StripNonLetters(b)
    decreases |a|
  {
    if |a| == 0 {
      assert a + b == b;
    } else {
      assert (a + b)[0] == a[0] && (a + b)[1..] == a[1..] + b;
      StripNonLettersConcat(a[1..], b);
    }
  }

  lemma StripNonLettersChar(c: char)
    ensures StripNonLetters([c]) == if Kept(c) then [c] else []
  {
    assert [c][1..] == [];
  }

  /** A string of kept characters only is left unchanged. */
  lemma {:induction false} StripKeepsKept(s: string)
    requires forall i :: 0 <= i < |s| ==> Kept(s[i])
    ensures StripNonLetters(s) == s
    decreases |s|
  {
    if |s| > 0 {
      StripKeepsKept(s[1..]);
      assert [s[0]] + s[1..] == s;
    }
  }

  /** The words `preprocess_text` splits off before filtering. */
  function Words(text: string): (ws: seq<string>)
    ensures forall i :: 0 <= i < |ws| ==> |ws[i]| > 0
    ensures forall i, j :: 0 <= i < |ws| && 0 <= j < |ws[i]| ==> IsAsciiLower(ws[i][j])
  {
    var stripped := StripNonLetters(LowerStr(text));
    var ws := Split(stripped);
    assert forall i, j :: 0 <= i < |ws| && 0 <= j < |ws[i]| ==> ws[i][j] in stripped && !IsSpace(ws[i][j]);
    ws
  }

  /** The words that are not stop words, in order. */
  function DropStopWords(words: seq<string>, stopWords: set<string>): (kept: seq<string>)
    ensures |kept| <= |words|
    ensures forall w :: w in kept <==> w in words && w !in stopWords
    decreases |words|
  {
    if |words| == 0 then []
    else
      var rest := DropStopWords(words[1..], stopWords);
      assert forall w :: w in words <==> w == words[0] || w in words[1..];
      if words[0] in stopWords then rest else [words[0]] + rest
  }

  /**
   * The list comprehension filters in order, keeping repeats: dropping stop
   * words distributes over concatenation, and a single word is kept exactly
   * when it is not a stop word.
   */
  lemma {:induction false} DropStopWordsConcat(a: seq<string>, b: seq<string>, stopWords: set<string>)
    ensures DropStopWords(a + b, stopWords) == DropStopWords(a, stopWords) + DropStopWords(b, stopWords)
    decreases |a|
  {
    if |a| == 0 {
      assert a + b == b;
    } else {
      assert (a + b)[0] == a[0] && (a + b)[1..] == a[1..] + b;
      DropStopWordsConcat(a[1..], b, stopWords);
    }
  }

  lemma DropStopWordsSingle(w: string, stopWords: set<string>)
    ensures DropStopWords([w], stopWords) == if w in stopWords then [] else [w]
  {
    assert [w][1..] == [];
  }

  /** Lemmatise every word. */
  function Lemmatize(words: seq<string>, lemmatize: string -> string): (r: seq<string>)
    ensures |r| == |words|
    ensures forall i :: 0 <= i < |words| ==> r[i] == lemmatize(words[i])
  {
    seq(|words|, i requires 0 <= i < |words| => lemmatize(words[i]))
  }

  /** The tokens `preprocess_text` joins: the lemmas of the non-stop words. */
  function Tokens(text: string, stopWords: set<string>, lemmatize: string -> string): (toks: seq<string>)
    ensures |toks| <= |Words(text)|
  {
    Lemmatize(DropStopWords(Words(text), stopWords), lemmatize)
  }

  /**
   * `preprocess_text`: the tokens joined with single spaces. No tokens give
   * the empty string; otherwise, when no lemma holds a space, cutting the
   * result at every single space gives back exactly the tokens. When every
   * lemma is a non-empty run of non-whitespace characters, the result also
   * splits on whitespace into exactly the tokens, which are never more than
   * the words of the text.
   */
  function PreprocessText(text: string, stopWords: set<string>, lemmatize: string -> string): (r: string)
    ensures var toks := Tokens(text, stopWords, lemmatize);
      |toks| == 0 ==> r == ""
    ensures var toks := Tokens(text, stopWords, lemmatize);
      |toks| > 0 && (forall i :: 0 <= i < |toks| ==> ' ' !in toks[i]) ==> SplitOn(r, " ") == toks
    ensures var toks := Tokens(text, stopWords, lemmatize);
      (forall i :: 0 <= i < |toks| ==> |toks[i]| > 0 && NoSpace(toks[i])) ==>
        Split(r) == toks && |Split(r)| <= |Words(text)|
  {
    var toks := Tokens(text, stopWords, lemmatize);
    var r := Join(toks, " ");
    assert (forall i :: 0 <= i < |toks| ==> |toks[i]| > 0 && NoSpace(toks[i])) ==> Split(r) == toks by {
      if forall i :: 0 <= i < |toks| ==> |toks[i]| > 0 && NoSpace(toks[i]) {
        SplitJoinRoundTrip(toks);
      }
    }
    assert |toks| > 0 && (forall i :: 0 <= i < |toks| ==> ' ' !in toks[i]) ==> SplitOn(r, " ") == toks by {
      if |toks| > 0 && forall i :: 0 <= i < |toks| ==> ' ' !in toks[i] {
        SplitOnJoinRoundTrip(toks, " ");
      }
    }
    r
  }

  /** `t` is the lemma of a word of `text` that is not a stop word. */
  predicate LemmaOfKeptWord(t: string, text: string, stopWords: set<string>, lemmatize: string -> string)
  {
    exists w :: w in Words(text) && w !in stopWords && t == lemmatize(w)
  }

  /**
   * Stop words are removed before lemmatising: every token is the lemma of a
   * word of the text that is not a stop word, and every such word yields a
   * token, so no stop word ever reaches the lemmatiser.
   */
  lemma TokensAreLemmasOfNonStopWords(text: string, stopWords: set<string>, lemmatize: string -> string)
    ensures var toks := Tokens(text, stopWords, lemmatize);
      forall i :: 0 <= i < |toks| ==> LemmaOfKeptWord(toks[i], text, stopWords, lemmatize)
    ensures var toks := Tokens(text, stopWords, lemmatize);
      forall w :: w in Words(text) && w !in stopWords ==> lemmatize(w) in toks
  {
    var kept := DropStopWords(Words(text), stopWords);
    var toks := Tokens(text, stopWords, lemmatize);
    forall i | 0 <= i < |toks|
      ensures LemmaOfKeptWord(toks[i], text, stopWords, lemmatize)
    {
      var w := kept[i];
      assert w in kept;
      assert w in Words(text) && w !in stopWords && toks[i] == lemmatize(w);
    }
    forall w | w in Words(text) && w !in stopWords
      ensures lemmatize(w) in toks
    {
      var j :| 0 <= j < |kept| && kept[j] == w;
      assert toks[j] == lemmatize(w);
    }
  }

  /** Empty or whitespace-only input gives the empty string. */
  lemma PreprocessBlank(text: string, stopWords: set<string>, lemmatize: string -> string)
    requires AllSpace(text)
    ensures PreprocessText(text, stopWords, lemmatize) == ""
  {
    var lowered := LowerStr(text);
    StripKeepsKept(lowered);
    SplitSpacesThenRest(lowered, "");
    assert lowered + "" == lowered;
  }
}

=== FILE: text.dfy ===
/**
 * Character classes and string operations of Python 3 that the triage code
 * relies on: `str.lower`, `str.isspace` (also the regex class `\s`), the regex
 * class `\w`, the substring test `k in s`, `str.split()` with no argument,
 * `str.split(sep)` and `sep.join(parts)`.
 */
module Text {
  import opened Wrappers

  /** Python's `str.isspace` for one character; also what `\s` matches in a `str` pattern. */
  predicate IsSpace(c: char)
  {
    var n := c as int;
    (9 <= n <= 13) || (28 <= n <= 32) || n == 0x85 || n == 0xA0 || n == 0x1680
    || (0x2000 <= n <= 0x200A) || n == 0x2028 || n == 0x2029 || n == 0x202F
    || n == 0x205F || n == 0x3000
  }

  predicate IsAsciiLower(c: char) { 'a' <= c <= 'z' }

  predicate IsAsciiUpper(c: char) { 'A' <= c <= 'Z' }

  /** The regex class `\w`, restricted to ASCII: letters, digits and underscore. */
  predicate IsWordChar(c: char)
  {
    IsAsciiLower(c) || IsAsciiUpper(c) || ('0' <= c <= '9') || c == '_'
  }

  /** `str.lower` on one character (ASCII letters only). */
  function Lower(c: char): (r: char)
    ensures !IsAsciiUpper(r)
    ensures !IsAsciiUpper(c) ==> r == c
    ensures IsAsciiUpper(c) ==> IsAsciiLower(r) && r as int - c as int == 32
    ensures IsSpace(r) <==> IsSpace(c)
    ensures IsWordChar(r) <==> IsWordChar(c)
  {
    if IsAsciiUpper(c) then (c as int + 32) as char else c
  }

  /** `str.lower` on a string. */
  function LowerStr(s: string): (r: string)
    ensures |r| == |s|
    ensures forall i :: 0 <= i < |s| ==> r[i] == Lower(s[i])
  {
    seq(|s|, i requires 0 <= i < |s| => Lower(s[i]))
  }

  /** A string `str.lower` leaves unchanged. */
  predicate IsLowered(s: string)
  {
    forall i :: 0 <= i < |s| ==> !IsAsciiUpper(s[i])
  }

  lemma LowerStrIsLowered(s: string)
    ensures IsLowered(LowerStr(s))
    ensures LowerStr(LowerStr(s)) == LowerStr(s)
  {
  }

  /** A lowercase word found in `s` is found at the same place in `s.lower()`. */
  lemma LoweredOccurrenceSurvives(s: string, k: string, i: nat)
    requires OccursAt(s, k, i) && IsLowered(k)
    ensures OccursAt(LowerStr(s), k, i)
    ensures Contains(LowerStr(s), k)
  {
    var t := LowerStr(s);
    forall j | 0 <= j < |k|
      ensures t[i..i + |k|][j] == k[j]
    {
      assert s[i..i + |k|][j] == s[i + j];
    }
    assert t[i..i + |k|] == k;
    assert OccursAt(t, k, i);
    ContainsIff(t, k);
  }

  lemma LowerStrConcat(a: string, b: string)
    ensures LowerStr(a + b) == LowerStr(a) + LowerStr(b)
  {
  }

  /** `k` occurs in `s` at offset `i`. */
  predicate OccursAt(s: string, k: string, i: int)
  {
    0 <= i && i + |k| <= |s| && s[i..i + |k|] == k
  }

  /** Python's `k in s` for strings, as a left-to-right scan. */
  predicate Contains(s: string, k: string)
    decreases |s|
  {
    |k| <= |s| && (s[..|k|] == k || Contains(s[1..], k))
  }

  /** The scan finds `k` exactly when `k` occurs at some offset of `s`. */
  lemma {:induction false} ContainsIff(s: string, k: string)
    ensures Contains(s, k) <==> exists i :: OccursAt(s, k, i)
    decreases |s|
  {
    if |k| <= |s| {
      if s[..|k|] == k {
        assert OccursAt(s, k, 0);
      } else {
        ContainsIff(s[1..], k);
        if Contains(s[1..], k) {
          var i :| OccursAt(s[1..], k, i);
          assert s[i + 1..i + 1 + |k|] == s[1..][i..i + |k|];
          assert OccursAt(s, k, i + 1);
        } else {
          forall i | 0 <= i
            ensures !OccursAt(s, k, i)
          {
            if i == 0 {
              assert s[..|k|] == s[0..|k|];
            } else if i + |k| <= |s| {
              assert !OccursAt(s[1..], k, i - 1);
              assert s[1..][i - 1..i - 1 + |k|] == s[i..i + |k|];
            }
          }
        }
      }
    }
  }

  /** Text added on either side never removes an occurrence. */
  lemma ContainsExtend(a: string, b: string, k: string)
    ensures Contains(a, k) ==> Contains(a + b, k) && Contains(b + a, k)
  {
    ContainsIff(a, k);
    ContainsIff(a + b, k);
    ContainsIff(b + a, k);
    if Contains(a, k) {
      var i :| OccursAt(a, k, i);
      assert (a + b)[i..i + |k|] == a[i..i + |k|];
      assert OccursAt(a + b, k, i);
      assert (b + a)[|b| + i..|b| + i + |k|] == a[i..i + |k|];
      assert OccursAt(b + a, k, |b| + i);
    }
  }

  /** Every character an occurrence covers is a character of the keyword, and the first is its first. */
  lemma OccurrenceCovers(s: string, k: string, i: int)
    requires OccursAt(s, k, i) && |k| > 0
    ensures forall p :: i <= p < i + |k| ==> s[p] in k
    ensures s[i] == k[0]
  {
    forall p | i <= p < i + |k|
      ensures s[p] in k
    {
      assert s[i..i + |k|][p - i] == s[p];
    }
    assert s[i..i + |k|][0] == s[i];
  }

  /**
   * A keyword without a comma that does not start with a space occurs in
   * `a + ", " + b` exactly when it occurs in `a` or in `b`: no occurrence
   * can straddle the separator.
   */
  lemma ContainsAroundComma(a: string, b: string, k: string)
    requires |k| > 0 && ',' !in k && k[0] != ' '
    ensures Contains(a + ", " + b, k) <==> Contains(a, k) || Contains(b, k)
  {
    var s := a + ", " + b;
    ContainsIff(s, k);
    ContainsIff(a, k);
    ContainsIff(b, k);
    if Contains(s, k) {
      var i :| OccursAt(s, k, i);
      OccurrenceAvoidsComma(a, b, k, i);
    }
    ContainsExtend(a, ", " + b, k);
    ContainsExtend(b, a + ", ", k);
    assert a + (", " + b) == s && (a + ", ") + b == s;
  }

  /** An occurrence of such a keyword in `a + ", " + b` lies wholly in `a` or wholly in `b`. */
  lemma OccurrenceAvoidsComma(a: string, b: string, k: string, i: int)
    requires |k| > 0 && ',' !in k && k[0] != ' ' && OccursAt(a + ", " + b, k, i)
    ensures OccursAt(a, k, i) || OccursAt(b, k, i - |a| - 2)
  {
    var s := a + ", " + b;
    assert s[|a|] == ',' && s[|a| + 1] == ' ';
    OccurrenceCovers(s, k, i);
    if i + |k| <= |a| {
      assert s[i..i + |k|] == a[i..i + |k|];
    } else {
      var j := i - |a| - 2;
      assert s[i..i + |k|] == b[j..j + |k|];
    }
  }

  /**
   * Such a keyword occurs in the lowercased `", ".join(p)` exactly when it
   * occurs in one of the lowercased parts, whatever their order.
   */
  lemma {:induction false} ContainsInCommaJoin(p: seq<string>, k: string)
    requires |k| > 0 && ',' !in k && k[0] != ' '
    ensures Contains(LowerStr(Join(p, ", ")), k) <==> exists x :: x in p && Contains(LowerStr(x), k)
    decreases |p|
  {
    if |p| == 1 {
      assert Join(p, ", ") == p[0];
      assert forall x :: x in p <==> x == p[0];
    } else if |p| > 1 {
      var rest := Join(p[1..], ", ");
      assert Join(p, ", ") == p[0] + ", " + rest;
      LowerStrConcat(p[0] + ", ", rest);
      LowerStrConcat(p[0], ", ");
      assert LowerStr(", ") == ", ";
      ContainsAroundComma(LowerStr(p[0]), LowerStr(rest), k);
      ContainsInCommaJoin(p[1..], k);
      assert forall x :: x in p <==> x == p[0] || x in p[1..];
    }
  }

  /** Every character of `k` occurs in any string that contains `k`. */
  lemma ContainsChars(s: string, k: string, c: char)
    requires Contains(s, k) && c in k
    ensures c in s
  {
    ContainsIff(s, k);
    var i :| OccursAt(s, k, i);
    var j :| 0 <= j < |k| && k[j] == c;
    assert s[i + j] == s[i..i + |k|][j];
  }

  /** A string lacking one of the characters of `k` does not contain `k`. */
  lemma MissingCharExcludes(s: string, k: string, c: char)
    requires c in k && c !in s
    ensures !Contains(s, k)
  {
    if Contains(s, k) {
      ContainsChars(s, k, c);
    }
  }

  /** Every character of `t` is one of `alphabet`. */
  predicate DrawnFrom(t: string, alphabet: string)
  {
    forall i :: 0 <= i < |t| ==> t[i] in alphabet
  }

  /** A keyword using a character outside the alphabet of `t` does not occur in `t`. */
  lemma AlphabetExcludes(t: string, alphabet: string, k: string, c: char)
    requires DrawnFrom(t, alphabet) && c in k && c !in alphabet
    ensures !Contains(t, k)
  {
    MissingCharExcludes(t, k, c);
  }

  predicate NoSpace(w: string)
  {
    forall i :: 0 <= i < |w| ==> !IsSpace(w[i])
  }

  predicate AllSpace(w: string)
  {
    forall i :: 0 <= i < |w| ==> IsSpace(w[i])
  }

  /** Length of the leading run of non-whitespace characters. */
  function WordLen(s: string): (n: nat)
    ensures n <= |s|
    ensures NoSpace(s[..n])
    ensures n == |s| || IsSpace(s[n])
  {
    if |s| == 0 || IsSpace(s[0]) then 0
    else
      var n := 1 + WordLen(s[1..]);
      assert s[..n] == [s[0]] + s[1..][..n - 1];
      n
  }

  /**
   * Python's `s.split()`: the maximal runs of non-whitespace characters, in
   * order, with leading, trailing and repeated whitespace discarded.
   */
  function Split(s: string): (ws: seq<string>)
    ensures |ws| <= |s|
    ensures forall i :: 0 <= i < |ws| ==> |ws[i]| > 0 && NoSpace(ws[i])
    ensures forall i, j :: 0 <= i < |ws| && 0 <= j < |ws[i]| ==> ws[i][j] in s
    decreases |s|
  {
    if |s| == 0 then []
    else if IsSpace(s[0]) then
      var rest := Split(s[1..]);
      assert forall i, j :: 0 <= i < |rest| && 0 <= j < |rest[i]| ==> rest[i][j] in s[1..];
      rest
    else
      var n := WordLen(s);
      var rest := Split(s[n..]);
      assert forall j :: 0 <= j < n ==> s[..n][j] in s;
      assert forall i, j :: 0 <= i < |rest| && 0 <= j < |rest[i]| ==> rest[i][j] in s[n..];
      [s[..n]] + rest
  }

  /**
   * Python's `sep.join(parts)`: empty for no parts, the part itself for one,
   * and otherwise starting with the first part.
   * `SplitJoinRoundTrip` and `SplitOnJoinRoundTrip` show nothing is lost.
   */
  function Join(parts: seq<string>, sep: string): (r: string)
    ensures |parts| == 0 ==> r == ""
    ensures |parts| == 1 ==> r == parts[0]
    ensures |parts| > 0 ==> parts[0] <= r
    decreases |parts|
  {
    if |parts| == 0 then ""
    else if |parts| == 1 then parts[0]
    else
      parts[0] + sep + Join(parts[1..], sep)
  }

  lemma {:induction false} WordLenOfWordThenSpace(x: string, y: string)
    requires NoSpace(x)
    requires |y| == 0 || IsSpace(y[0])
    ensures WordLen(x + y) == |x|
    decreases |x|
  {
    if |x| > 0 {
      assert (x + y)[1..] == x[1..] + y;
      WordLenOfWordThenSpace(x[1..], y);
    } else {
      assert x + y == y;
    }
  }

  /** A word followed by whitespace (or nothing) splits off as the first word. */
  lemma SplitWordThenRest(x: string, y: string)
    requires |x| > 0 && NoSpace(x)
    requires |y| == 0 || IsSpace(y[0])
    ensures Split(x + y) == [x] + Split(y)
  {
    WordLenOfWordThenSpace(x, y);
    assert (x + y)[..|x|] == x;
    assert (x + y)[|x|..] == y;
  }

  /** Leading whitespace does not change the split. */
  lemma {:induction false} SplitSpacesThenRest(x: string, y: string)
    requires AllSpace(x)
    ensures Split(x + y) == Split(y)
    decreases |x|
  {
    if |x| > 0 {
      assert (x + y)[1..] == x[1..] + y;
      SplitSpacesThenRest(x[1..], y);
    } else {
      assert x + y == y;
    }
  }

  /** Joining words with single spaces and splitting again gives back the words. */
  lemma {:induction false} SplitJoinRoundTrip(ws: seq<string>)
    requires forall i :: 0 <= i < |ws| ==> |ws[i]| > 0 && NoSpace(ws[i])
    ensures Split(Join(ws, " ")) == ws
    decreases |ws|
  {
    if |ws| == 1 {
      SplitWordThenRest(ws[0], "");
      assert ws[0] + "" == ws[0];
    } else if |ws| > 1 {
      var rest := Join(ws[1..], " ");
      assert Join(ws, " ") == ws[0] + (" " + rest);
      SplitWordThenRest(ws[0], " " + rest);
      SplitSpacesThenRest(" ", rest);
      SplitJoinRoundTrip(ws[1..]);
      assert [ws[0]] + ws[1..] == ws;
    }
  }

  /** The first offset at which `sep` occurs in `s`. */
  function IndexOf(s: string, sep: string): (r: Option<nat>)
    requires |sep| > 0
    ensures r.Some? ==> OccursAt(s, sep, r.value)
    ensures r.Some? ==> forall j :: 0 <= j < r.value ==> !OccursAt(s, sep, j)
    ensures r.None? ==> forall j :: !OccursAt(s, sep, j)
    decreases |s|
  {
    if |s| < |sep| then None
    else if s[..|sep|] == sep then
      assert s[0..|sep|] == s[..|sep|];
      Some(0)
    else
      match IndexOf(s[1..], sep)
      case None =>
        assert forall j :: 1 <= j ==> (OccursAt(s, sep, j) ==> OccursAt(s[1..], sep, j - 1)) by {
          forall j | 1 <= j && OccursAt(s, sep, j)
            ensures OccursAt(s[1..], sep, j - 1)
          {
            assert s[1..][j - 1..j - 1 + |sep|] == s[j..j + |sep|];
          }
        }
        assert s[0..|sep|] == s[..|sep|];
        None
      case Some(i) =>
        assert s[1..][i..i + |sep|] == s[i + 1..i + 1 + |sep|];
        assert forall j :: 1 <= j <= i ==> (OccursAt(s, sep, j) ==> OccursAt(s[1..], sep, j - 1)) by {
          forall j | 1 <= j <= i && OccursAt(s, sep, j)
            ensures OccursAt(s[1..], sep, j - 1)
          {
            assert s[1..][j - 1..j - 1 + |sep|] == s[j..j + |sep|];
          }
        }
        assert s[0..|sep|] == s[..|sep|];
        Some(i + 1)
  }

  /** Python's `s.split(sep)` for a non-empty separator. */
  function SplitOn(s: string, sep: string): (parts: seq<string>)
    requires |sep| > 0
    ensures |parts| > 0
    decreases |s|
  {
    match IndexOf(s, sep)
    case None => [s]
    case Some(i) => [s[..i]] + SplitOn(s[i + |sep|..], sep)
  }

  /** A string without the separator's first character holds no occurrence of it. */
  lemma NoOccurrenceWithoutFirstChar(p: string, sep: string)
    requires |sep| > 0 && sep[0] !in p
    ensures forall j :: !OccursAt(p, sep, j)
  {
    forall j | 0 <= j
      ensures !OccursAt(p, sep, j)
    {
      if j + |sep| <= |p| {
        assert p[j..j + |sep|][0] == p[j];
      }
    }
  }

  lemma IndexOfAfterPart(p: string, sep: string, rest: string)
    requires |sep| > 0 && sep[0] !in p
    ensures IndexOf(p + sep + rest, sep) == Some(|p|)
  {
    var s := p + sep + rest;
    assert s[|p|..|p| + |sep|] == sep;
    forall j | 0 <= j < |p|
      ensures !OccursAt(s, sep, j)
    {
      if j + |sep| <= |s| {
        assert s[j..j + |sep|][0] == s[j] == p[j];
      }
    }
    assert OccursAt(s, sep, |p|);
  }

  /** Splitting `p + sep + rest` splits off `p` when `p` lacks the separator's first character. */
  lemma SplitOnAfterPart(p: string, sep: string, rest: string)
    requires |sep| > 0 && sep[0] !in p
    ensures SplitOn(p + sep + rest, sep) == [p] + SplitOn(rest, sep)
  {
    var s := p + sep + rest;
    IndexOfAfterPart(p, sep, rest);
    assert s[..|p|] == p;
    assert s[|p| + |sep|..] == rest;
  }

  /**
   * Splitting a join on the same separator gives back the parts, provided no
   * part contains the separator's first character.
   */
  lemma {:induction false} SplitOnJoinRoundTrip(parts: seq<string>, sep: string)
    requires |sep| > 0 && |parts| > 0
    requires forall i :: 0 <= i < |parts| ==> sep[0] !in parts[i]
    ensures SplitOn(Join(parts, sep), sep) == parts
    decreases |parts|
  {
    if |parts| == 1 {
      NoOccurrenceWithoutFirstChar(parts[0], sep);
    } else {
      var rest := Join(parts[1..], sep);
      assert Join(parts, sep) == parts[0] + sep + rest;
      SplitOnAfterPart(parts[0], sep, rest);
      SplitOnJoinRoundTrip(parts[1..], sep);
      assert [parts[0]] + parts[1..] == parts;
    }
  }
}

=== FILE: triage.dfy ===
/**
 * The decision logic of the complaint service: accepting a submission
 * (validation, the final location, the next id, the stored record) and the
 * listing ordered by urgency.
 *
 * The CSV store is a sequence of records, oldest first. Reading and writing
 * it, the HTTP layer and the clock are left out: the store is an argument,
 * the new store is part of the result, and the timestamp is an opaque string
 * parameter.
 */
module Triage {
  import opened Wrappers
  import opened Text
  import opened UrgencyScorer
  import opened Classifier
  import opened LocationExtractor

  /** One stored complaint, with the columns of the CSV store. */
  datatype Complaint = Complaint(
    id: int,
    description: string,
    category: string,
    severity: Tier,
    location: string,
    urgency: int,
    date: string,
    status: string)

  /** The error reported for a missing or empty description. */
  const DescriptionRequired: string := "Complaint description is required"

  /** The id of the first complaint of an empty store. */
  const FirstId: int := 1001

  /** The status of a newly submitted complaint. */
  const PendingStatus: string := "Pending"

  /** The severity argument the service passes to the scorer. */
  const NotAssessed: string := "N/A"

  /** Python truthiness of an optional string: present and non-empty. */
  predicate Truthy(s: Option<string>)
  {
    s.Some? && |s.value| > 0
  }

  /** The largest id in a non-empty store. */
  function MaxId(store: seq<Complaint>): (m: int)
    requires |store| > 0
    ensures forall i :: 0 <= i < |store| ==> store[i].id <= m
    ensures exists i :: 0 <= i < |store| && store[i].id == m
    decreases |store|
  {
    if |store| == 1 then store[0].id
    else
      var rest := MaxId(store[1..]);
      assert forall i :: 1 <= i < |store| ==> store[i] == store[1..][i - 1];
      if store[0].id >= rest then store[0].id else rest
  }

  /** The id of the next complaint: 1001 for an empty store, otherwise one more than the largest id. */
  function NextId(store: seq<Complaint>): (id: int)
    ensures |store| == 0 ==> id == FirstId
    ensures forall i :: 0 <= i < |store| ==> store[i].id < id
    ensures |store| > 0 ==> exists i :: 0 <= i < |store| && store[i].id == id - 1
  {
    if |store| == 0 then FirstId else MaxId(store) + 1
  }

  /** The location stored with a complaint: the user's input when it is non-empty, the extracted one otherwise. */
  function FinalLocation(locationInput: Option<string>, description: string): (loc: string)
    ensures Truthy(locationInput) ==> loc == locationInput.value
    ensures !Truthy(locationInput) ==> loc == ExtractLocation(description)
  {
    if Truthy(locationInput) then locationInput.value else ExtractLocation(description)
  }

  /** The record a valid submission stores. */
  function NewComplaint(store: seq<Complaint>, description: string, locationInput: Option<string>,
                        now: string, env: NlpEnv): (c: Complaint)
    ensures c.id == NextId(store)
    ensures c.description == description && c.date == now && c.status == PendingStatus
    ensures c.category == ClassifyComplaint(description, env).0
    ensures c.location == FinalLocation(locationInput, description)
    ensures c.severity == SeverityLevel(c.category, description)
    ensures c.urgency == Score(c.category, NotAssessed, c.location, description)
  {
    var category := ClassifyComplaint(description, env).0;
    var location := FinalLocation(locationInput, description);
    Complaint(NextId(store), description, category, SeverityLevel(category, description), location,
              Score(category, NotAssessed, location, description), now, PendingStatus)
  }

  /**
   * `submit_complaint`: the error for a missing or empty description (and
   * nothing stored); otherwise the store with the new record appended, and
   * the record.
   */
  function Submit(store: seq<Complaint>, description: Option<string>, locationInput: Option<string>,
                  now: string, env: NlpEnv): (r: Result<(seq<Complaint>, Complaint), string>)
    ensures r.Failure? <==> !Truthy(description)
    ensures r.Failure? ==> r.error == DescriptionRequired
    ensures r.Success? ==>
      var (newStore, c) := r.value;
      && |newStore| == |store| + 1
      && newStore[..|store|] == store
      && newStore[|store|] == c
      && c == NewComplaint(store, description.value, locationInput, now, env)
  {
    if !Truthy(description) then Failure(DescriptionRequired)
    else
      var c := NewComplaint(store, description.value, locationInput, now, env);
      assert (store + [c])[..|store|] == store;
      Success((store + [c], c))
  }

  /** Ids are pairwise distinct. */
  predicate UniqueIds(store: seq<Complaint>)
  {
    forall i, j :: 0 <= i < j < |store| ==> store[i].id != store[j].id
  }

  /** A submission keeps the ids of the store pairwise distinct. */
  lemma SubmitKeepsIdsUnique(store: seq<Complaint>, description: Option<string>, locationInput: Option<string>,
                             now: string, env: NlpEnv)
    requires UniqueIds(store)
    ensures var r := Submit(store, description, locationInput, now, env);
      r.Success? ==> UniqueIds(r.value.0)
  {
    var r := Submit(store, description, locationInput, now, env);
    if r.Success? {
      var (newStore, c) := r.value;
      forall i, j | 0 <= i < j < |newStore|
        ensures newStore[i].id != newStore[j].id
      {
        if j < |store| {
          assert newStore[i] == newStore[..|store|][i] == store[i];
          assert newStore[j] == newStore[..|store|][j] == store[j];
        } else {
          assert newStore[i] == newStore[..|store|][i] == store[i];
        }
      }
    }
  }

  /** A description of whitespace only is truthy, so it is accepted. */
  lemma WhitespaceDescriptionAccepted(store: seq<Complaint>, description: string, locationInput: Option<string>,
                                      now: string, env: NlpEnv)
    requires |description| > 0 && AllSpace(description)
    ensures Submit(store, Some(description), locationInput, now, env).Success?
  {
  }

  /**
   * The stored urgency is a score in 1..10, and the stored severity is the
   * tier that score was computed from.
   */
  lemma StoredSeverityAgreesWithUrgency(store: seq<Complaint>, description: Option<string>,
                                        locationInput: Option<string>, now: string, env: NlpEnv)
    ensures var r := Submit(store, description, locationInput, now, env);
      r.Success? ==>
        var c := r.value.1;
        && 1 <= c.urgency <= 10
        && c.urgency == (4 * CategoryWeight(c.category) + 4 * SeverityWeight(c.severity)
                         + 2 * LocationImpact(c.location) + 5) / 10
  {
  }

  /**
   * Without a location from the user, a description that names no place is
   * stored at the "Unknown Location" sentinel, which weighs 0.1.
   */
  lemma NoPlaceMeansUnknownLocation(store: seq<Complaint>, description: string, locationInput: Option<string>,
                                    now: string, env: NlpEnv)
    requires |description| > 0 && !Truthy(locationInput)
    requires forall k :: 0 <= k < |LocationKeywords| ==> !OccursAsWord(LowerStr(description), LocationKeywords[k])
    ensures var r := Submit(store, Some(description), locationInput, now, env);
      r.Success? && r.value.1.location == UnknownLocation && LocationImpact(r.value.1.location) == UnknownLocationWeight
  {
    UnknownLocationImpact(UnknownLocation);
  }

  /**
   * The stored location's weight does not depend on the order in which the
   * distinct phrases are joined, so any iteration order of Python's set
   * gives the same urgency.
   */
  lemma LocationWeightIgnoresSetOrder(description: string, order: seq<string>)
    requires |Found(description)| > 0
    requires forall x :: x in order <==> x in Found(description)
    ensures LocationImpact(Join(order, PhraseSeparator)) == LocationImpact(ExtractLocation(description))
  {
    LocationImpactIgnoresPhraseOrder(order, Dedup(Found(description)));
  }

  /** Urgencies never increase along the sequence. */
  predicate ByUrgency(s: seq<Complaint>)
  {
    forall i, j :: 0 <= i < j < |s| ==> s[i].urgency >= s[j].urgency
  }

  /** A record at least as urgent as the head of an ordered sequence can go in front of it. */
  lemma ConsByUrgency(x: Complaint, s: seq<Complaint>)
    requires ByUrgency(s) && (|s| == 0 || x.urgency >= s[0].urgency)
    ensures ByUrgency([x] + s)
  {
    var r := [x] + s;
    forall i, j | 0 <= i < j < |r|
      ensures r[i].urgency >= r[j].urgency
    {
      if i == 0 {
        assert r[j] == s[j - 1];
        if j > 1 {
          assert s[0].urgency >= s[j - 1].urgency;
        }
      } else {
        assert r[i] == s[i - 1] && r[j] == s[j - 1];
      }
    }
  }

  /** Insert `c` in front of the first record it is at least as urgent as. */
  function Insert(c: Complaint, s: seq<Complaint>): (r: seq<Complaint>)
    requires ByUrgency(s)
    ensures ByUrgency(r)
    ensures multiset(r) == multiset(s) + multiset{c}
    ensures |r| == |s| + 1 && (r[0] == c || (|s| > 0 && r[0] == s[0]))
    ensures |s| > 0 && c.urgency >= s[0].urgency ==> r == [c] + s
    decreases |s|
  {
    if |s| == 0 || c.urgency >= s[0].urgency then
      ConsByUrgency(c, s);
      [c] + s
    else
      ByUrgencyTail(s);
      var rest := Insert(c, s[1..]);
      ConsByUrgency(s[0], rest);
      assert multiset([s[0]] + rest) == multiset{s[0]} + multiset(rest);
      [s[0]] + rest
  }

  /** The tail of an ordered sequence is ordered, and its head is at least as urgent as the rest. */
  lemma ByUrgencyTail(s: seq<Complaint>)
    requires ByUrgency(s) && |s| > 0
    ensures ByUrgency(s[1..])
    ensures |s| > 1 ==> s[0].urgency >= s[1].urgency
    ensures multiset(s) == multiset{s[0]} + multiset(s[1..])
  {
    forall i, j | 0 <= i < j < |s| - 1
      ensures s[1..][i].urgency >= s[1..][j].urgency
    {
      assert s[1..][i] == s[i + 1] && s[1..][j] == s[j + 1];
    }
    assert s == [s[0]] + s[1..];
  }

  /** `get_complaints`: the stored records ordered by urgency, most urgent first. */
  function ListComplaints(store: seq<Complaint>): (r: seq<Complaint>)
    ensures ByUrgency(r)
    ensures multiset(r) == multiset(store)
    decreases |store|
  {
    if |store| == 0 then []
    else
      assert store == [store[0]] + store[1..];
      Insert(store[0], ListComplaints(store[1..]))
  }

  /** The urgency column of a sequence of records. */
  function Urgencies(s: seq<Complaint>): (u: seq<int>)
    ensures |u| == |s|
    ensures forall i :: 0 <= i < |s| ==> u[i] == s[i].urgency
  {
    seq(|s|, i requires 0 <= i < |s| => s[i].urgency)
  }

  lemma UrgenciesConcat(a: seq<Complaint>, b: seq<Complaint>)
    ensures Urgencies(a + b) == Urgencies(a) + Urgencies(b)
  {
  }

  /** Removing the record at `k`: the multisets of the records and of their urgencies each lose one element. */
  lemma RemoveAt(b: seq<Complaint>, k: nat)
    requires k < |b|
    ensures multiset(b) == multiset(b[..k] + b[k + 1..]) + multiset{b[k]}
    ensures multiset(Urgencies(b)) == multiset(Urgencies(b[..k] + b[k + 1..])) + multiset{b[k].urgency}
  {
    assert b == b[..k] + [b[k]] + b[k + 1..];
    UrgenciesConcat(b[..k], [b[k]]);
    UrgenciesConcat(b[..k] + [b[k]], b[k + 1..]);
    UrgenciesConcat(b[..k], b[k + 1..]);
    assert Urgencies([b[k]]) == [b[k].urgency];
  }

  /** Splitting off the first record: the urgency multiset loses its urgency. */
  lemma UrgenciesHead(a: seq<Complaint>)
    requires |a| > 0
    ensures multiset(Urgencies(a)) == multiset(Urgencies(a[1..])) + multiset{a[0].urgency}
  {
    assert a == [a[0]] + a[1..];
    UrgenciesConcat([a[0]], a[1..]);
    assert Urgencies([a[0]]) == [a[0].urgency];
  }

  /** Removing matching records from two sequences with the same multiset leaves the same multiset. */
  lemma RemoveMatched(a: seq<Complaint>, b: seq<Complaint>, k: nat)
    requires multiset(a) == multiset(b) && |a| > 0 && k < |b| && b[k] == a[0]
    ensures multiset(a[1..]) == multiset(b[..k] + b[k + 1..])
    ensures multiset(Urgencies(b)) == multiset(Urgencies(b[..k] + b[k + 1..])) + multiset{a[0].urgency}
  {
    RemoveAt(b, k);
    assert a == [a[0]] + a[1..];
    assert multiset(a[1..]) == multiset(a) - multiset{a[0]};
    assert multiset(b[..k] + b[k + 1..]) == multiset(b) - multiset{b[k]};
  }

  /** Records with the same multiset have urgency columns with the same multiset. */
  lemma {:induction false} SameRecordsSameUrgencies(a: seq<Complaint>, b: seq<Complaint>)
    requires multiset(a) == multiset(b)
    ensures multiset(Urgencies(a)) == multiset(Urgencies(b))
    decreases |a|
  {
    if |a| == 0 {
      assert |b| == |multiset(b)| == 0;
    } else {
      assert a[0] in multiset(b);
      var k :| 0 <= k < |b| && b[k] == a[0];
      RemoveMatched(a, b, k);
      UrgenciesHead(a);
      SameRecordsSameUrgencies(a[1..], b[..k] + b[k + 1..]);
    }
  }

  /** Integers that never increase along the sequence. */
  predicate Descending(x: seq<int>)
  {
    forall i, j :: 0 <= i < j < |x| ==> x[i] >= x[j]
  }

  lemma DescendingTail(x: seq<int>)
    requires |x| > 0 && Descending(x)
    ensures Descending(x[1..])
    ensures multiset(x) == multiset{x[0]} + multiset(x[1..])
  {
    forall i, j | 0 <= i < j < |x| - 1
      ensures x[1..][i] >= x[1..][j]
    {
      assert x[1..][i] == x[i + 1] && x[1..][j] == x[j + 1];
    }
    assert x == [x[0]] + x[1..];
  }

  /** Non-increasing sequences with the same multiset start with the same, largest, element. */
  lemma DescendingHeadsEqual(x: seq<int>, y: seq<int>)
    requires multiset(x) == multiset(y) && Descending(x) && Descending(y) && |x| > 0 && |y| > 0
    ensures x[0] == y[0]
  {
    assert x[0] in multiset(y) && y[0] in multiset(x);
    var k :| 0 <= k < |y| && y[k] == x[0];
    var l :| 0 <= l < |x| && x[l] == y[0];
    assert y[0] >= y[k] && x[0] >= x[l];
  }

  /** Removing the equal heads leaves tails that are still ordered and have the same multiset. */
  lemma DescendingTailsSameMultiset(x: seq<int>, y: seq<int>)
    requires multiset(x) == multiset(y) && Descending(x) && Descending(y) && |x| > 0 && |y| > 0 && x[0] == y[0]
    ensures Descending(x[1..]) && Descending(y[1..])
    ensures multiset(x[1..]) == multiset(y[1..])
  {
    DescendingTail(x);
    DescendingTail(y);
    assert multiset(x[1..]) == multiset(x) - multiset{x[0]};
    assert multiset(y[1..]) == multiset(y) - multiset{y[0]};
  }

  /** Two non-increasing integer sequences with the same multiset are equal. */
  lemma {:induction false} DescendingPermutationsEqual(x: seq<int>, y: seq<int>)
    requires multiset(x) == multiset(y) && Descending(x) && Descending(y)
    ensures x == y
    decreases |x|
  {
    if |x| == 0 {
      assert |y| == |multiset(y)| == 0;
    } else {
      assert |y| > 0 by {
        assert |y| == |multiset(y)| == |multiset(x)| == |x|;
      }
      DescendingHeadsEqual(x, y);
      DescendingTailsSameMultiset(x, y);
      DescendingPermutationsEqual(x[1..], y[1..]);
      assert x == [x[0]] + x[1..] && y == [y[0]] + y[1..];
    }
  }

  /**
   * Any ordering of the store by non-increasing urgency, such as the one
   * the unstable sort produces, has the same urgency column as the listing:
   * orderings differ only in how records of equal urgency are arranged.
   */
  lemma ListingUniqueUpToTies(store: seq<Complaint>, other: seq<Complaint>)
    requires multiset(other) == multiset(store) && ByUrgency(other)
    ensures Urgencies(ListComplaints(store)) == Urgencies(other)
  {
    var listed := ListComplaints(store);
    SameRecordsSameUrgencies(listed, other);
    assert Descending(Urgencies(listed)) && Descending(Urgencies(other));
    DescendingPermutationsEqual(Urgencies(listed), Urgencies(other));
  }

  /**
   * A store already ordered by urgency keeps its urgency column when listed;
   * only records of equal urgency may change places.
   */
  lemma OrderedStoreKeepsUrgencies(store: seq<Complaint>)
    requires ByUrgency(store)
    ensures Urgencies(ListComplaints(store)) == Urgencies(store)
  {
    ListingUniqueUpToTies(store, store);
  }
}

=== FILE: urgency_scorer.dfy ===
/**
 * The urgency scorer: keyword-driven severity tiers, the category, severity
 * and location weight tables, and the weighted 1..10 urgency score.
 *
 * Every weight of the source is a multiple of 0.1, so weights are kept here
 * in integer tenths (0.9 is 9). With weights c, s and l in tenths the
 * source's `raw_score * 10` is the rational (4c + 4s + 2l) / 10.
 */
module UrgencyScorer {
  import opened Wrappers
  import opened Text

  /** Severity tiers, most urgent first. */
  datatype Tier = Critical | High | Medium | Low

  /** Position of a tier in the urgency order (Low lowest). */
  function Rank(t: Tier): nat
  {
    match t
    case Critical => 3
    case High => 2
    case Medium => 1
    case Low => 0
  }

  const CriticalKeywords: seq<string> := [
    "critical", "emergency", "immediate", "danger", "life threatening",
    "collapse", "explosion", "fire", "flooding", "sinkhole", "accident",
    "aggressive", "chased a child", "attacked", "bit", "rabid",
    "blocked access", "no access", "fire lane"
  ]

  const HighKeywords: seq<string> := [
    "urgent", "severe", "major", "widespread", "hazardous", "health risk",
    "no power", "no water", "overflowing", "piling up", "dangerous",
    "aggressive", "pack of dogs", "roaming",
    "significant blockage"
  ]

  const MediumKeywords: seq<string> := [
    "leak", "flickering", "broken", "damaged", "minor", "nuisance",
    "slow", "congestion", "overdue", "smell", "noise", "stray"
  ]

  /** Declared by the scorer but never read by the tier decision. */
  const LowKeywords: seq<string> := [
    "minor inconvenience", "aesthetic", "faded", "suggestion", "small",
    "cosmetic", "lost pet"
  ]

  /** Some keyword of the list is a substring of `text`. */
  predicate Mentions(text: string, keywords: seq<string>)
  {
    exists i :: 0 <= i < |keywords| && Contains(text, keywords[i])
  }

  /**
   * Python's `for keyword in keywords: if keyword in text: ...`: whether the
   * scan of the list from position `from` onwards finds a keyword in `text`.
   * The ordered scan succeeds exactly when some keyword from `from` on occurs.
   */
  predicate ScanFinds(text: string, keywords: seq<string>, from: nat)
    ensures ScanFinds(text, keywords, from) <==> exists i :: from <= i < |keywords| && Contains(text, keywords[i])
    decreases |keywords| - from
  {
    from < |keywords| && (Contains(text, keywords[from]) || ScanFinds(text, keywords, from + 1))
  }

  /**
   * `get_severity_level`: the description is lowercased and the Critical,
   * High and Medium lists are scanned in that order by substring test; Low is
   * the fall-through and the category is accepted and ignored. So the tier is
   * Critical when any Critical keyword occurs, whatever else does; High only
   * when no Critical keyword does; Medium only when neither a Critical nor a
   * High keyword does; Low otherwise.
   */
  function SeverityLevel(category: string, description: string): (t: Tier)
    ensures var d := LowerStr(description);
      && (t == Critical <==> Mentions(d, CriticalKeywords))
      && (t == High <==> !Mentions(d, CriticalKeywords) && Mentions(d, HighKeywords))
      && (t == Medium <==> !Mentions(d, CriticalKeywords) && !Mentions(d, HighKeywords) && Mentions(d, MediumKeywords))
      && (t == Low <==> !Mentions(d, CriticalKeywords) && !Mentions(d, HighKeywords) && !Mentions(d, MediumKeywords))
  {
    var d := LowerStr(description);
    if ScanFinds(d, CriticalKeywords, 0) then Critical
    else if ScanFinds(d, HighKeywords, 0) then High
    else if ScanFinds(d, MediumKeywords, 0) then Medium
    else Low
  }

  /** Severity does not depend on letter case. */
  lemma SeverityCaseInsensitive(category: string, description: string)
    ensures SeverityLevel(category, LowerStr(description)) == SeverityLevel(category, description)
  {
    LowerStrIsLowered(description);
    var d := LowerStr(description);
    assert LowerStr(d) == d;
  }

  /** Severity does not depend on the category argument. */
  lemma SeverityIgnoresCategory(c1: string, c2: string, description: string)
    ensures SeverityLevel(c1, description) == SeverityLevel(c2, description)
  {
  }

  /** Text added on either side never removes a keyword occurrence. */
  lemma MentionsExtend(a: string, b: string, keywords: seq<string>)
    ensures Mentions(a, keywords) ==> Mentions(a + b, keywords) && Mentions(b + a, keywords)
  {
    if Mentions(a, keywords) {
      var i :| 0 <= i < |keywords| && Contains(a, keywords[i]);
      ContainsExtend(a, b, keywords[i]);
    }
  }

  /**
   * More text never lowers the tier: a keyword found in a description is
   * still found once text is added before or after it.
   */
  lemma SeverityMonotoneUnderExtension(category: string, description: string, extra: string)
    ensures Rank(SeverityLevel(category, description + extra)) >= Rank(SeverityLevel(category, description))
    ensures Rank(SeverityLevel(category, extra + description)) >= Rank(SeverityLevel(category, description))
  {
    var d := LowerStr(description);
    var e := LowerStr(extra);
    LowerStrConcat(description, extra);
    LowerStrConcat(extra, description);
    MentionsExtend(d, e, CriticalKeywords);
    MentionsExtend(d, e, HighKeywords);
    MentionsExtend(d, e, MediumKeywords);
  }

  /**
   * "aggressive" is listed under both Critical and High; since Critical is
   * tried first, any description containing it is Critical, never High.
   */
  lemma AggressiveIsAlwaysCritical(category: string, description: string)
    requires Contains(LowerStr(description), "aggressive")
    ensures SeverityLevel(category, description) == Critical
  {
    assert CriticalKeywords[11] == "aggressive";
  }

  /** Any Critical keyword in the lowercased description makes it Critical. */
  lemma CriticalKeywordDecides(category: string, description: string, i: nat)
    requires i < |CriticalKeywords| && Contains(LowerStr(description), CriticalKeywords[i])
    ensures SeverityLevel(category, description) == Critical
  {
  }

  /** Matching is by substring: "habit" contains the Critical keyword "bit". */
  lemma HabitIsCritical(category: string)
    ensures SeverityLevel(category, "Bad habit") == Critical
  {
    assert OccursAt("Bad habit", "bit", 6);
    LoweredOccurrenceSurvives("Bad habit", "bit", 6);
    assert CriticalKeywords[14] == "bit";
    CriticalKeywordDecides(category, "Bad habit", 14);
  }

  /** A Low keyword does not stop a Critical keyword from deciding the tier. */
  lemma SmallFireIsCritical(category: string)
    ensures SeverityLevel(category, "small fire") == Critical
  {
    assert OccursAt("small fire", "fire", 6);
    LoweredOccurrenceSurvives("small fire", "fire", 6);
    assert CriticalKeywords[7] == "fire";
    CriticalKeywordDecides(category, "small fire", 7);
  }

  /** Category weights in tenths; unmapped categories fall back to "Unknown". */
  const CategoryImpact: map<string, nat> := map[
    "Electricity" := 9,
    "Water" := 8,
    "Sanitation" := 7,
    "Roads" := 6,
    "Traffic" := 5,
    "Encroachment" := 4,
    "Animal Control" := 8,
    "Unknown" := 1
  ]

  /** Python's `category_impact.get(category, category_impact["Unknown"])`. */
  function CategoryWeight(category: string): (w: nat)
    ensures 1 <= w <= 9
    ensures category in CategoryImpact ==> w == CategoryImpact[category]
    ensures category !in CategoryImpact ==> w == 1
  {
    if category in CategoryImpact then CategoryImpact[category] else CategoryImpact["Unknown"]
  }

  /** Severity weights in tenths. */
  function SeverityWeight(t: Tier): (w: nat)
    ensures 2 <= w <= 10
    ensures Rank(t) * 2 + 2 <= w
    ensures w == 10 <==> t == Critical
    ensures w == 2 <==> t == Low
  {
    match t
    case Critical => 10
    case High => 8
    case Medium => 5
    case Low => 2
  }

  /** A higher tier never weighs less, and a strictly higher tier weighs at least 0.2 more. */
  lemma SeverityWeightMonotone(t1: Tier, t2: Tier)
    ensures Rank(t1) <= Rank(t2) ==> SeverityWeight(t1) <= SeverityWeight(t2)
    ensures Rank(t1) < Rank(t2) ==> SeverityWeight(t1) + 2 <= SeverityWeight(t2)
  {
  }

  /** Location keywords and their weights in tenths, in the table's declared order. */
  const LocationImpactFactors: seq<(string, nat)> := [
    ("hospital", 10),
    ("school", 9),
    ("park", 8),
    ("market", 7),
    ("main road", 6),
    ("highway", 6),
    ("residential area", 5),
    ("public place", 5),
    ("city entrance", 6),
    ("community center", 4),
    ("bus stop", 4),
    ("metro station", 4),
    ("industrial area", 3),
    ("unknown location", 1)
  ]

  /** The weight used when no location keyword matches. */
  const UnknownLocationWeight: nat := 1

  /** Index of the first table entry at or after `from` whose key occurs in `text`. */
  function FirstLocationMatch(text: string, from: nat): (r: Option<nat>)
    requires from <= |LocationImpactFactors|
    ensures r.Some? ==> from <= r.value < |LocationImpactFactors|
                        && Contains(text, LocationImpactFactors[r.value].0)
                        && forall j :: from <= j < r.value ==> !Contains(text, LocationImpactFactors[j].0)
    ensures r.None? ==> forall j :: from <= j < |LocationImpactFactors| ==> !Contains(text, LocationImpactFactors[j].0)
    decreases |LocationImpactFactors| - from
  {
    if from == |LocationImpactFactors| then None
    else if Contains(text, LocationImpactFactors[from].0) then Some(from)
    else FirstLocationMatch(text, from + 1)
  }

  /**
   * The weight of the first table entry, in declared order, whose key is a
   * substring of the lowercased location; 1 (0.1) when none is.
   */
  function LocationImpact(location: string): (w: nat)
    ensures 1 <= w <= 10
    ensures var t := LowerStr(location);
      (forall j :: 0 <= j < |LocationImpactFactors| ==> !Contains(t, LocationImpactFactors[j].0)) ==> w == UnknownLocationWeight
    ensures var t := LowerStr(location);
      forall i :: 0 <= i < |LocationImpactFactors| && Contains(t, LocationImpactFactors[i].0)
        && (forall j :: 0 <= j < i ==> !Contains(t, LocationImpactFactors[j].0))
        ==> w == LocationImpactFactors[i].1
  {
    var t := LowerStr(location);
    LocationWeightsInRange();
    FirstLocationMatchIsFirst(t);
    match FirstLocationMatch(t, 0)
    case Some(i) => LocationImpactFactors[i].1
    case None => UnknownLocationWeight
  }

  /** Every weight of the location table lies in 0.1..1.0. */
  lemma LocationWeightsInRange()
    ensures forall i :: 0 <= i < |LocationImpactFactors| ==> 1 <= LocationImpactFactors[i].1 <= 10
  {
  }

  /** An entry that occurs in `text` with no earlier entry occurring is the one the scan returns. */
  lemma FirstLocationMatchIsFirst(text: string)
    ensures forall i :: (0 <= i < |LocationImpactFactors| && Contains(text, LocationImpactFactors[i].0)
                         && forall j :: 0 <= j < i ==> !Contains(text, LocationImpactFactors[j].0))
                        ==> FirstLocationMatch(text, 0) == Some(i)
  {
    var r := FirstLocationMatch(text, 0);
    forall i | 0 <= i < |LocationImpactFactors| && Contains(text, LocationImpactFactors[i].0)
        && (forall j :: 0 <= j < i ==> !Contains(text, LocationImpactFactors[j].0))
      ensures r == Some(i)
    {
    }
  }

  /** Two texts containing the same table keys give the same first match. */
  lemma {:induction false} FirstLocationMatchAgrees(t1: string, t2: string, from: nat)
    requires from <= |LocationImpactFactors|
    requires forall j :: from <= j < |LocationImpactFactors| ==>
               (Contains(t1, LocationImpactFactors[j].0) <==> Contains(t2, LocationImpactFactors[j].0))
    ensures FirstLocationMatch(t1, from) == FirstLocationMatch(t2, from)
    decreases |LocationImpactFactors| - from
  {
    if from < |LocationImpactFactors| {
      FirstLocationMatchAgrees(t1, t2, from + 1);
    }
  }

  /** The location weight depends only on which table keys the lowercased location contains. */
  lemma SameKeysSameImpact(l1: string, l2: string)
    requires forall j :: 0 <= j < |LocationImpactFactors| ==>
               (Contains(LowerStr(l1), LocationImpactFactors[j].0) <==> Contains(LowerStr(l2), LocationImpactFactors[j].0))
    ensures LocationImpact(l1) == LocationImpact(l2)
  {
    FirstLocationMatchAgrees(LowerStr(l1), LowerStr(l2), 0);
  }

  /** No table key holds a comma or starts with a space. */
  lemma LocationKeysHaveNoComma()
    ensures forall j :: 0 <= j < |LocationImpactFactors| ==>
              var k := LocationImpactFactors[j].0; |k| > 0 && ',' !in k && k[0] != ' '
  {
  }

  /**
   * The weight of phrases joined with ", " does not depend on their order
   * or repeats: a table key never straddles the separator.
   */
  lemma LocationImpactIgnoresPhraseOrder(p: seq<string>, q: seq<string>)
    requires forall x :: x in p <==> x in q
    ensures LocationImpact(Join(p, ", ")) == LocationImpact(Join(q, ", "))
  {
    LocationKeysHaveNoComma();
    forall j | 0 <= j < |LocationImpactFactors|
      ensures Contains(LowerStr(Join(p, ", ")), LocationImpactFactors[j].0)
              <==> Contains(LowerStr(Join(q, ", ")), LocationImpactFactors[j].0)
    {
      ContainsInCommaJoin(p, LocationImpactFactors[j].0);
      ContainsInCommaJoin(q, LocationImpactFactors[j].0);
    }
    SameKeysSameImpact(Join(p, ", "), Join(q, ", "));
  }

  /**
   * An earlier table entry wins: a location mentioning "park" (0.8) but
   * neither "hospital" nor "school" weighs 0.8, whatever later entries, such
   * as "main road" (0.6), it also mentions.
   */
  lemma ParkOutranksLaterEntries(location: string)
    requires var t := LowerStr(location);
      Contains(t, "park") && !Contains(t, "hospital") && !Contains(t, "school")
    ensures LocationImpact(location) == 8
  {
    var t := LowerStr(location);
    assert LocationImpactFactors[0].0 == "hospital" && LocationImpactFactors[1].0 == "school";
    assert LocationImpactFactors[2] == ("park", 8);
    assert forall j :: 0 <= j < 2 ==> !Contains(t, LocationImpactFactors[j].0);
  }

  /** "Main Road near the Park" weighs 0.8, not 0.6. */
  lemma ParkBeatsMainRoad(location: string)
    requires location == "Main Road near the Park"
    ensures Contains(LowerStr(location), "main road")
    ensures LocationImpact(location) == 8
  {
    var t := LowerStr(location);
    assert t == "main road near the park";
    ParkAndMainRoadOnly(t);
    ParkOutranksLaterEntries(location);
  }

  lemma ParkAndMainRoadOnly(t: string)
    requires t == "main road near the park"
    ensures Contains(t, "park") && Contains(t, "main road")
    ensures !Contains(t, "hospital") && !Contains(t, "school")
  {
    assert OccursAt(t, "park", 19);
    ContainsIff(t, "park");
    assert OccursAt(t, "main road", 0);
    ContainsIff(t, "main road");
    MissingCharExcludes(t, "hospital", 's');
    MissingCharExcludes(t, "school", 's');
  }

  /** The "Unknown Location" sentinel weighs 0.1, like a location with no keyword. */
  lemma UnknownLocationImpact(location: string)
    requires location == "Unknown Location"
    ensures LocationImpact(location) == UnknownLocationWeight
  {
    var t := LowerStr(location);
    assert t == "unknown location";
    assert DrawnFrom(t, "unknown location");
    NoEarlierEntryInSentinel(t);
  }

  /**
   * For each location table entry before the sentinel's own, a character of
   * its key that "unknown location" lacks.
   */
  const SentinelMisfits: string := "hspmmhrpymbmd"

  lemma NoEarlierEntryInSentinel(t: string)
    requires DrawnFrom(t, "unknown location")
    ensures forall j :: 0 <= j < |LocationImpactFactors| - 1 ==> !Contains(t, LocationImpactFactors[j].0)
  {
    forall j | 0 <= j < |LocationImpactFactors| - 1
      ensures !Contains(t, LocationImpactFactors[j].0)
    {
      SentinelMisfit(j);
      AlphabetExcludes(t, "unknown location", LocationImpactFactors[j].0, SentinelMisfits[j]);
    }
  }

  lemma SentinelMisfit(j: nat)
    requires j < |LocationImpactFactors| - 1
    ensures SentinelMisfits[j] in LocationImpactFactors[j].0 && SentinelMisfits[j] !in "unknown location"
  {
  }

  /** Python's `round(n / d)` on the exact rational: to the nearest integer, ties to even. */
  function PyRound(n: int, d: int): (r: int)
    requires d > 0
    ensures 2 * (n - d * r) <= d && -d <= 2 * (n - d * r)
    ensures 2 * (n - d * r) == d || 2 * (n - d * r) == -d ==> r % 2 == 0
  {
    var q := n / d;
    var rem := n % d;
    assert n - d * q == rem && n - d * (q + 1) == rem - d by {
      assert n == d * q + rem;
      assert d * (q + 1) == d * q + d;
    }
    if 2 * rem < d then q
    else if 2 * rem > d then q + 1
    else if q % 2 == 0 then q
    else q + 1
  }

  /** Python's `max(1, round(raw_score * 10))` with the weights in tenths. */
  function ScoreFromWeights(c: nat, s: nat, l: nat): (r: int)
    requires 1 <= c <= 10 && 1 <= s <= 10 && 1 <= l <= 10
    ensures 1 <= r <= 10
    ensures r == (4 * c + 4 * s + 2 * l + 5) / 10
  {
    var n := 4 * c + 4 * s + 2 * l;
    var rounded := PyRound(n, 10);
    assert n % 2 == 0;
    var r := if rounded < 1 then 1 else rounded;
    r
  }

  /** The score never decreases when any one weight increases. */
  lemma ScoreMonotone(c: nat, s: nat, l: nat, c': nat, s': nat, l': nat)
    requires 1 <= c <= c' <= 10 && 1 <= s <= s' <= 10 && 1 <= l <= l' <= 10
    ensures ScoreFromWeights(c, s, l) <= ScoreFromWeights(c', s', l')
  {
  }

  /**
   * `score_complaint`: the category weight, the weight of the tier recomputed
   * from the description (the `severity` argument is ignored) and the
   * location weight, combined and rounded into 1..10.
   */
  function Score(category: string, severity: string, location: string, description: string): (r: int)
    ensures 1 <= r <= 10
    ensures r == (4 * CategoryWeight(category) + 4 * SeverityWeight(SeverityLevel(category, description))
                  + 2 * LocationImpact(location) + 5) / 10
  {
    var categoryWeight := CategoryWeight(category);
    var severityWeight := SeverityWeight(SeverityLevel(category, description));
    var locationWeight := LocationImpact(location);
    ScoreFromWeights(categoryWeight, severityWeight, locationWeight)
  }

  /** The `severity` argument has no influence on the score. */
  lemma ScoreIgnoresSeverityArgument(category: string, s1: string, s2: string, location: string, description: string)
    ensures Score(category, s1, location, description) == Score(category, s2, location, description)
  {
  }

  /** Adding text to a description never lowers its score. */
  lemma ScoreMonotoneUnderExtension(category: string, severity: string, location: string, description: string, extra: string)
    ensures Score(category, severity, location, description + extra) >= Score(category, severity, location, description)
    ensures Score(category, severity, location, extra + description) >= Score(category, severity, location, description)
  {
    SeverityMonotoneUnderExtension(category, description, extra);
    SeverityWeightMonotone(SeverityLevel(category, description), SeverityLevel(category, description + extra));
    SeverityWeightMonotone(SeverityLevel(category, description), SeverityLevel(category, extra + description));
  }

  /** "hospital" heads the location table, so any location mentioning it weighs 1.0. */
  lemma HospitalOutranksAll(location: string)
    requires Contains(LowerStr(location), "hospital")
    ensures LocationImpact(location) == 10
  {
    assert LocationImpactFactors[0] == ("hospital", 10);
  }

  /** Electricity, the word "critical" and a hospital give the maximum score. */
  lemma ScoreHospitalPowerOutage(description: string)
    requires description == "Power outage in the hospital area since last night. This is critical."
    ensures Score("Electricity", "N/A", "hospital", description) == 10
  {
    PowerOutageIsCritical(description);
    HospitalWeighsMost();
    assert CategoryWeight("Electricity") == 9;
  }

  lemma PowerOutageIsCritical(description: string)
    requires description == "Power outage in the hospital area since last night. This is critical."
    ensures SeverityLevel("Electricity", description) == Critical
  {
    assert OccursAt(description, "critical", 60);
    LoweredOccurrenceSurvives(description, "critical", 60);
    assert CriticalKeywords[0] == "critical";
    CriticalKeywordDecides("Electricity", description, 0);
  }

  lemma HospitalWeighsMost()
    ensures LocationImpact("hospital") == 10
  {
    LoweredOccurrenceSurvives("hospital", "hospital", 0);
    HospitalOutranksAll("hospital");
  }

  /** No keyword, no location and an unmapped category give the minimum score. */
  lemma ScoreUnknownEverything(category: string, location: string, description: string)
    requires category == "Unknown" && location == "Unknown Location" && description == ""
    ensures Score(category, "N/A", location, description) == 1
  {
    assert LocationImpact(location) == UnknownLocationWeight by {
      UnknownLocationImpact(location);
    }
    EmptyDescriptionIsLow(category, description);
  }

  /** An empty description mentions no keyword and so is Low. */
  lemma EmptyDescriptionIsLow(category: string, description: string)
    requires description == ""
    ensures SeverityLevel(category, description) == Low
  {
    assert LowerStr(description) == "";
    EmptyMentionsNothing(CriticalKeywords);
    EmptyMentionsNothing(HighKeywords);
    EmptyMentionsNothing(MediumKeywords);
  }

  /** The empty description contains no non-empty keyword. */
  lemma EmptyMentionsNothing(keywords: seq<string>)
    requires forall i :: 0 <= i < |keywords| ==> |keywords[i]| > 0
    ensures !Mentions("", keywords)
  {
  }
}

=== FILE: wrappers.dfy ===
/** Optional values and results, used across the model. */
module Wrappers {

  /** An optional value: `None` stands for Python's `None` or a missing key. */
  datatype Option<+T> = None | Some(value: T)

  /** The outcome of an operation that may be rejected with an error value. */
  datatype Result<+R, +E> = Success(value: R) | Failure(error: E)
}
